=== FILE: README.md ===
# Kisan Bhasha Bandhu in Dafny

A model of the bilingual (English and Hindi) front end of Kisan Bhasha Bandhu, a
farmer-advisory web app, together with proofs about it. It covers three parts.

**The translation layer.** This is `LanguageContext`:
- the two dictionaries, written out entry by entry;
- the provider, which reads the saved language at mount and then writes the
  active language to storage and to the document's `lang` attribute;
- `t`, which shows a present, non-empty entry and otherwise the key itself;
- the default context that consumers see when no provider is mounted.

**The components that consume it.** These are the language switcher and the
header. The header part covers the avatar initials, the mobile-menu flag and
the navigation menu.

**The pages.** These are sign-in, crop advice and profile:
- the two validation schemas of the sign-in page, its signup payload, and its
  tab, submit and redirect transitions;
- the crop-advice form's canned advice, and the page's sign-in guard and its
  form/results switch;
- the profile page's form state, its submission, its guards and its user-type
  label.

**Modules and files.**
- `Wrappers` (`wrappers.dfy`): `Option`.
- `Translations` (`translations.dfy`): languages, dictionaries, provider and `t`.
- `TranslationKeys` (`translation_keys.dfy`): the key sets of the dictionaries.
  The sections are disjoint, the two languages have the same keys, each has 60
  entries, and a key is looked up in the section that writes it. The many
  per-section lemmas there (`…Namespace`, `…Size`, `…Keys`) are stepping stones
  for the rows below.
- `LanguageFacts` (`language_facts.dfy`): persistence, switching and lookup.
- `Switcher` (`switcher.dfy`): `LanguageSwitcher`.
- `Initials` (`initials.dfy`): the header's `getInitials`.
- `Header` (`header.dfy`): the rest of `Header`.
- `Auth` (`auth.dfy`): the sign-in page.
- `AdviceForm` (`advice_form.dfy`): `CropAdviceForm`.
- `AdvicePage` (`advice_page.dfy`): `CropAdvice`.
- `Profile` (`profile.dfy`): the profile page.
- `Labels` (`labels.dfy`): which keys the pages ask `t` for, and which of them
  the dictionaries hold.

**Two facts about the code worth stating up front.**
- The Hindi dictionary holds `advice.results.newAdvice`, at
  src/context/LanguageContext.tsx:173, so the results button is labelled in Hindi
  under Hindi (`LanguageFacts.NewAdviceInHindi`).
- The saved language is adopted by the unchecked cast
  `(saved as Language) || 'en'` at src/context/LanguageContext.tsx:189. Any
  non-empty saved string becomes the active language, and `t` then fails on
  every call (`LanguageFacts.UnsupportedSavedCode`; see "## Findings").

**How the model stands for things the code does differently.**
- **The failing lookup.** Under such a code `translations[language]` is
  undefined and indexing it throws a TypeError. The model writes this as `None`.
- **The authentication service.** Whether the user exists, whether the session
  is loading, whether `signIn` and `signUp` returned without throwing, and
  whether the profile update returned an error are all parameters.
- **Email syntax.** The validation library's email check is the parameter
  `validEmail`.
- **The clock.** The time of a profile update is a parameter.

## Model

| member | source | states |
|---|---|---|
| Translations.LanguageOf | src/context/LanguageContext.tsx:23-24 | a code has a dictionary exactly when it is "en" or "hi", and the language found has that code |
| Translations.LookupIn | src/context/LanguageContext.tsx:201 | `d[key] \|\| key`: a present non-empty entry is shown; otherwise the key itself |
| Translations.Init | src/context/LanguageContext.tsx:187-197 | a mount persists what it adopts; null and "" give "en"; any other saved string is adopted as is |
| Translations.CheckedInit | src/context/LanguageContext.tsx:187-190 | the corrected mount: it persists what it adopts, adopts a saved code only when it names a dictionary, and falls back to "en" otherwise |
| Translations.SetLanguage | src/context/LanguageContext.tsx:193-197 | after a switch the language, the storage and the document attribute all hold the new, supported code |
| Translations.Translate | src/context/LanguageContext.tsx:200-202 | `t` fails exactly when the active code has no dictionary; otherwise it gives the key or that dictionary's entry for it |
| Translations.ContextLanguage | src/context/LanguageContext.tsx:15-19 | without a provider the language read is "en" |
| Translations.ContextTranslate | src/context/LanguageContext.tsx:15-19 | without a provider `t` is the identity; with one it is the provider's `t` |
| Translations.ContextSetLanguage | src/context/LanguageContext.tsx:15-19 | without a provider `setLanguage` does nothing; with one it switches the provider |
| LanguageFacts.TranslateFound | src/context/LanguageContext.tsx:200-202 | a present, non-empty entry of the active dictionary is what `t` shows |
| LanguageFacts.TranslateMissing | src/context/LanguageContext.tsx:200-202 | a key missing from the active dictionary is shown as itself, with no fallback to the other language |
| LanguageFacts.TranslatedInBoth | src/context/LanguageContext.tsx:23-182 | a key is in the English dictionary exactly when it is in the Hindi one |
| LanguageFacts.ReloadRestores | src/context/LanguageContext.tsx:187-197 | after a switch, storage holds the new code, and mounting again from it restores the same provider |
| LanguageFacts.InitStable | src/context/LanguageContext.tsx:187-197 | mounting from what a mount persisted gives the same provider |
| LanguageFacts.SetLanguageIdempotent | src/context/LanguageContext.tsx:193-197 | switching to the same language twice is switching once |
| LanguageFacts.LastSwitchWins | src/context/LanguageContext.tsx:193-197 | of two switches only the last is observable |
| LanguageFacts.UnsupportedSavedCode | src/context/LanguageContext.tsx:187-202 | a saved non-empty code without a dictionary is adopted, every lookup then fails, the switcher's options and trigger and the header menu cannot render, and a reload restores the same code |
| LanguageFacts.CheckedInitTranslates | src/context/LanguageContext.tsx:187-202 | under the corrected mount `t` never fails, the switcher and the menu render, a supported saved code is adopted as `Init` adopts it, and a reload is stable |
| LanguageFacts.HindiNewAdviceEntry | src/context/LanguageContext.tsx:173 | the Hindi results section writes the "new advice" label |
| LanguageFacts.HindiNewAdvice | src/context/LanguageContext.tsx:173 | the whole Hindi dictionary shows that label for its key |
| LanguageFacts.NewAdviceInHindi | src/context/LanguageContext.tsx:173 | under Hindi, `t` labels the results button in Hindi |
| TranslationKeys.FlattenKeys | src/context/LanguageContext.tsx:23-182 | dictionaries with the same keys section by section have the same keys |
| TranslationKeys.EnglishSeparated | src/context/LanguageContext.tsx:24-101 | no English key is written in two sections: each section lives in its own namespace |
| TranslationKeys.HindiSeparated | src/context/LanguageContext.tsx:103-180 | the same for the Hindi dictionary |
| TranslationKeys.SectionKeysAgree | src/context/LanguageContext.tsx:23-182 | the Hindi dictionary has the English keys, section by section |
| TranslationKeys.DictionariesShareKeys | src/context/LanguageContext.tsx:23-182 | both dictionaries have exactly the same key set |
| TranslationKeys.EnglishSize | src/context/LanguageContext.tsx:24-101 | the English dictionary has 60 distinct keys |
| TranslationKeys.DictionarySizes | src/context/LanguageContext.tsx:23-182 | both dictionaries have 60 distinct keys |
| TranslationKeys.FlattenSize | src/context/LanguageContext.tsx:23-182 | a dictionary whose sections are separated has as many keys as its sections together |
| TranslationKeys.NavigationLookup | src/context/LanguageContext.tsx:25-31 | a navigation name is looked up in the navigation entries, and no later section overrides it |
| TranslationKeys.SwitcherShows | src/context/LanguageContext.tsx:69-72 | a switcher key is shown as its switcher entry |
| TranslationKeys.ResultsLookup | src/context/LanguageContext.tsx:93-101 | a results key is looked up in the results section, the last one written |
| TranslationKeys.AbsentKey | src/context/LanguageContext.tsx:24-101 | a key that is not a navigation name and lies outside every namespace is not in the dictionary |
| Switcher.Options | src/components/LanguageSwitcher.tsx:10-13 | two options, English then Hindi, named by `t("language.en")` and `t("language.hi")`; nothing renders when `t` fails |
| Switcher.Select | src/components/LanguageSwitcher.tsx:27 | clicking an option switches the provider to its code and persists it; without a provider nothing changes |
| Switcher.TriggerLabel | src/components/LanguageSwitcher.tsx:19 | the trigger shows `t("language.switch")`, which is the key itself without a provider |
| Switcher.SectionEntries | src/context/LanguageContext.tsx:69-151 | the switcher entries as the two dictionaries write them |
| Switcher.EnglishEntries | src/context/LanguageContext.tsx:69-72 | what the English dictionary shows for the three switcher keys |
| Switcher.HindiEntries | src/context/LanguageContext.tsx:148-151 | what the Hindi dictionary shows for the three switcher keys |
| Switcher.LabelsIndependentOfLanguage | src/components/LanguageSwitcher.tsx:10-13 | under either language the options read "English" and "हिंदी" |
| Switcher.TriggerInOtherLanguage | src/components/LanguageSwitcher.tsx:19 | each dictionary names the switch in the other language: Hindi text under English, English text under Hindi |
| Switcher.ExactlyOneHighlighted | src/components/LanguageSwitcher.tsx:26 | whenever the list renders exactly one option is highlighted, the active language's |
| Switcher.SelectHighlights | src/components/LanguageSwitcher.tsx:26-27 | the option chosen becomes the highlighted one, and only the language changes |
| Initials.Split | src/components/Header.tsx:35 | cutting at single spaces gives one part more than there are spaces, none containing a space |
| Initials.JoinSplit | src/components/Header.tsx:35 | joining the parts with spaces gives the name back |
| Initials.SplitJoin | src/components/Header.tsx:35 | splitting joined space-free parts gives the parts back |
| Initials.Upper | src/components/Header.tsx:38 | upper-casing keeps the length and maps each character |
| Initials.Prefix | src/components/Header.tsx:39 | `substring(0, n)` is the longest prefix of at most n characters |
| Initials.GetInitials | src/components/Header.tsx:32-40 | at most two characters; null, undefined and "" give "U" |
| Initials.FirstCharsAreWordStarts | src/components/Header.tsx:34-37 | the first characters of the parts are exactly the characters that start a word |
| Initials.InitialsAreWordStarts | src/components/Header.tsx:32-40 | a non-empty name's initials are its first two word starts, upper-cased |
| Initials.OnlySpaces | src/components/Header.tsx:32-40 | a name of spaces only gets the empty string, not "U" |
| Initials.TabIsNotASeparator | src/components/Header.tsx:35 | only the space separates words: "a\tb c" gives "AC" |
| Initials.TwoWords | src/components/Header.tsx:32-40 | " a  b " gives "AB": empty parts from repeated or edge spaces add nothing |
| Header.ToggleMobileMenu | src/components/Header.tsx:24-26 | the toggle flips the menu flag |
| Header.ToggleTwice | src/components/Header.tsx:22-26 | two toggles restore the state; the menu starts closed and one toggle opens it |
| Header.MenuLinks | src/components/Header.tsx:42-47 | the menu renders exactly when `t` works, with the four targets in order, each under `t` of its key |
| Header.Links | src/components/Header.tsx:42-47 | translating a list of items keeps order and targets, and fails exactly when `t` fails |
| Header.MenuInOrder | src/components/Header.tsx:42-47 | the menu is home, services, about, contact, in that order, under their translated labels |
| Header.FourLinksInOrder | src/components/Header.tsx:42-47 | four items render as four links in item order |
| Header.IntendedMenuLinks | src/components/Header.tsx:42-47 | the menu built from the navigation keys the dictionaries write: the same targets and order |
| Header.IntendedMenuInOrder | src/components/Header.tsx:42-47 | that menu lists home, services, about and contact under their translated labels |
| Auth.ValidateLogin | src/pages/Auth.tsx:24-27 | the login issues report exactly the malformed email and the password under 6 characters, no other issue, and none twice |
| Auth.ValidateSignup | src/pages/Auth.tsx:29-38 | each of the five signup issues, including the mismatch reported on the confirmation field, is raised exactly when its rule fails, no other issue can appear, and there are at most five |
| Auth.SignupIssuesDistinct | src/pages/Auth.tsx:29-38 | no signup issue is reported twice |
| Auth.SignupAcceptedIff | src/pages/Auth.tsx:29-38 | a signup is accepted exactly when every rule holds |
| Auth.DefaultsRejected | src/pages/Auth.tsx:48-65 | the untouched forms are rejected for the empty password and the empty name, not for the user type or the confirmation |
| Auth.StripConfirm | src/pages/Auth.tsx:82 | the payload keeps every value but the confirmation |
| Auth.WithConfirm | src/pages/Auth.tsx:82 | putting a confirmation back sets exactly that field |
| Auth.StripConfirmRoundTrip | src/pages/Auth.tsx:82 | stripping loses the confirmation and nothing else |
| Auth.AcceptedPayload | src/pages/Auth.tsx:79-83 | an accepted signup sends a confirmed password of at least 6 characters and a known user type |
| Auth.ChooseTab | src/pages/Auth.tsx:109 | choosing a tab changes only the tab |
| Auth.BeginSubmit | src/pages/Auth.tsx:69 | a submission starts by marking the page as submitting |
| Auth.AfterSignup | src/pages/Auth.tsx:79-94 | after a signup the page is not submitting; when `signUp` returned without throwing the login tab shows, and when it threw the tab stays |
| Auth.AfterLogin | src/pages/Auth.tsx:67-77 | after a login the page is not submitting, and it navigates to "/" exactly when `signIn` returned without throwing |
| Auth.View | src/pages/Auth.tsx:96-98 | a signed-in user is sent home once loading is over; otherwise the active tab's form shows |
| Auth.SignupReturnsToLogin | src/pages/Auth.tsx:79-98 | a successful signup from the signup tab lands on the login form, and a failed one stays on the signup form |
| AdviceForm.BuildResponse | src/components/CropAdviceForm.tsx:59-88 | one recommendation for the submitted crop, four practices ending in the two fixed ones, the fixed yield, timeline and market value, and exactly the fixed soil-health and water-management lists |
| AdviceForm.SameResponseIff | src/components/CropAdviceForm.tsx:63-65 | two submissions get the same advice exactly when crop, water availability and the "soil in region" phrase agree |
| AdviceForm.IgnoresLandSizeAndDetails | src/components/CropAdviceForm.tsx:59-88 | land size and additional details never change the advice |
| AdviceForm.SoilAndRegionAmbiguous | src/components/CropAdviceForm.tsx:65 | on arbitrary strings the builder confuses soil and region: a typed soil "black soil in Punjab" gives the same advice as the soil "black" |
| AdviceForm.SoilPlaceInjective | src/components/CropAdviceForm.tsx:65 | for soils without a space the "soil in region" phrase determines both the soil and the region |
| AdviceForm.SelectedSoilResponseIff | src/components/CropAdviceForm.tsx:147-171 | with a soil the Select offers, two submissions get the same advice exactly when crop, soil, region and water availability agree |
| AdviceForm.DefaultsBuildEmptyCropAdvice | src/components/CropAdviceForm.tsx:43-62 | with no validation rule the untouched form yields advice for the empty crop name |
| AdvicePage.View | src/pages/CropAdvice.tsx:17-42 | without a user once loading is over, a history-replacing redirect to "/auth"; otherwise the form until advice exists, then that advice |
| AdvicePage.Submit | src/components/CropAdviceForm.tsx:90 | a submission stores the advice built from the values |
| AdvicePage.Reset | src/pages/CropAdvice.tsx:40 | a reset clears the advice |
| AdvicePage.NoRedirectWhileLoading | src/pages/CropAdvice.tsx:17-19 | nothing redirects while the session loads |
| AdvicePage.FormResultsCycle | src/pages/CropAdvice.tsx:35-42 | a signed-in user sees the form, then the advice for what was submitted, then the form again after a reset |
| Profile.InitialForm | src/pages/Profile.tsx:20-23 | the form holds exactly the two fields, from the profile when present, "" for null columns or no profile |
| Profile.HandleChange | src/pages/Profile.tsx:25-30 | an edit sets the named input and changes no other field |
| Profile.ChangeKeepsFields | src/pages/Profile.tsx:20-30 | editing either input keeps exactly the two fields |
| Profile.ChangesCompose | src/pages/Profile.tsx:25-30 | edits to different inputs commute; of two edits to one input the later wins |
| Profile.HandleSubmit | src/pages/Profile.tsx:32-64 | without a user nothing happens; otherwise `isUpdating` goes true then false, the form's values are sent for the user's row, and the toast reports success exactly when the update returned no error |
| Profile.SubmitSettles | src/pages/Profile.tsx:32-64 | every submission ends not updating, and an edited name reaches the request |
| Profile.UntouchedSubmitWritesProfile | src/pages/Profile.tsx:20-47 | submitting the untouched form writes back the values of the profile present at the page's first render, nulls as "" |
| Profile.View | src/pages/Profile.tsx:66-76 | a spinner while loading, else a redirect to "/auth" without a user (not replacing history), else the page |
| Profile.GuardsAgree | src/pages/Profile.tsx:74-76 | the profile and crop-advice pages redirect the same visitors to "/auth"; only crop advice replaces the history entry |
| Profile.UserTypeKey | src/pages/Profile.tsx:101 | "auth.farmer" exactly when the profile's user type is "farmer"; otherwise "auth.expert", including a missing profile |
| Labels.OutsideByInitials | src/context/LanguageContext.tsx:23-182 | a key whose first letters begin no namespace is unwritten |
| Labels.UnwrittenAbsent | src/context/LanguageContext.tsx:23-182 | an unwritten key is in neither dictionary |
| Labels.ShownAsKey | src/context/LanguageContext.tsx:200-202 | under either language, and without a provider, `t` shows an unwritten key as itself |
| Labels.NavigationKeysUnwritten | src/components/Header.tsx:43-46 | the header's menu keys are unwritten |
| Labels.MenuShowsKeys | src/components/Header.tsx:42-47 | the header menu shows "nav.home", "nav.services", "nav.about" and "nav.contact" literally, in either language |
| Labels.NavigationEntries | src/context/LanguageContext.tsx:25-110 | the navigation entries as the two dictionaries write them |
| Labels.EnglishNavigation | src/context/LanguageContext.tsx:25-31 | the English dictionary shows the navigation names as "Home", "Services", "About Us", "Contact" |
| Labels.HindiNavigation | src/context/LanguageContext.tsx:104-110 | the Hindi dictionary shows them in Hindi |
| Labels.IntendedMenuInEnglish | src/components/Header.tsx:42-47 | with the written keys the menu reads in English under English |
| Labels.IntendedMenuInHindi | src/components/Header.tsx:42-47 | and in Hindi under Hindi |
| Labels.HeaderKeysUnwritten | src/components/Header.tsx:56-117 | the header's title and account keys are unwritten |
| Labels.AuthKeysUnwritten | src/pages/Auth.tsx:85-243 | every key the sign-in page asks for is unwritten |
| Labels.ProfileKeysUnwritten | src/pages/Profile.tsx:52-148 | every profile key the profile page asks for is unwritten |
| Labels.HeaderShowsKeys | src/components/Header.tsx:56-117 | the header's title and account labels show as raw keys in either language |
| Labels.AuthShowsKeys | src/pages/Auth.tsx:104-243 | every sign-in page label shows as its raw key in either language |
| Labels.ProfileShowsKeys | src/pages/Profile.tsx:52-148 | every profile page label shows as its raw key in either language |
| Labels.UserTypeShownAsKey | src/pages/Profile.tsx:101 | the profile's user type reads as its own key |
| Labels.AdviceSectionKey | src/context/LanguageContext.tsx:74-101 | a key written in a crop-advice section is a key of the dictionary |
| Labels.AdvicePageKeysWritten | src/pages/CropAdvice.tsx:27-30 | the crop-advice page's keys are written in the advice heading |
| Labels.AdviceFormKeysWritten | src/components/CropAdviceForm.tsx:92-259 | the form's keys are written in the form, success and error sections |
| Labels.AdviceResultsKeysWritten | src/components/AdviceResults.tsx:34-113 | the results view's keys are written in the results section |
| Labels.AdviceKeysTranslated | src/components/CropAdviceForm.tsx:92-259 | every key the crop-advice page, form and results ask for is in both dictionaries |

## Findings

| source | as written | input that shows it | evidently intended | confidence | as-written member | corrected member |
|---|---|---|---|---|---|---|
| src/components/Header.tsx:42-47 | the menu labels use the keys `nav.home`, `nav.services`, `nav.about` and `nav.contact`, which neither dictionary holds | any language, e.g. Hindi: the menu shows "nav.home" | the navigation entries the dictionaries write as `home`, `services`, `about` and `contact` (src/components/Footer.tsx:30-33 asks for those), showing "Home" or "होम" | medium, not executed | Labels.MenuShowsKeys | Labels.IntendedMenuInHindi |
| src/context/LanguageContext.tsx:187-190 | the saved string is cast to `Language` without a check, so any non-empty value is adopted | storage holding "fr": every `t` call throws, the switcher and the menu cannot render, and each reload re-adopts "fr" | adopt the saved value only when it is "en" or "hi", otherwise "en" | medium, not executed | LanguageFacts.UnsupportedSavedCode | LanguageFacts.CheckedInitTranslates |

The English counterpart of the corrected menu is `Labels.IntendedMenuInEnglish`.
The header also asks for `nav.login`, `nav.profile` and `nav.signOut`, which are
just as unwritten, so the intent may equally have been to add `nav.*` entries to
the dictionaries; either way the menu shows raw keys as written.
The corrected mount is `Translations.CheckedInit`.
The sign-in page, the profile page and the header's title and account entries
ask for keys no dictionary writes at all (`Labels.HeaderShowsKeys`, `Labels.AuthShowsKeys`, `Labels.ProfileShowsKeys`). No intended
text can be read off the source for them, so they are modelled as written and
not listed as findings.

## Left out

- The dictionaries' prototype keys: the source's objects answer `t("constructor")` with a JavaScript function. The model treats the dictionaries as plain maps and gives the key back.
- Storage failure: `localStorage` and `document` are fields of the provider, and a `setItem` that throws is not modelled.
- React mechanics: rendering, effects' timing, re-rendering and the one-time evaluation of `useState` initialisers. Each state change is a pure function from state to state.
- Profile.UntouchedSubmitWritesProfile: `formData` is initialised once, at the first render, which runs before the loading guard; a page that mounts while the session is still loading may hold "" and an untouched submit then writes "" over the stored name. The lemma speaks of the profile present at that first render.
- Translations.Translate: a code naming an `Object.prototype` member (such as "toString" or "constructor") makes `translations[language]` an inherited function, so the source's `t` returns the key; the model treats such codes as unsupported and gives `None`.
- The remote calls: the authentication service and the database update are parameters or outcomes, and the request's `eq('id', …)` filter is the request's `id`.
- CropAdviceForm timing and notices: the `setTimeout` delay, and the toasts of the crop-advice form and the sign-in page. The form's `catch` branch cannot be reached, since building the advice cannot throw, so the model has no error path there.
- Auth.ValidateSignup: the enumeration check and the password refinement are both reported. The validation library skips the refinement only when a field aborts the object, which here means an invalid `user_type`; after a failed `min` or `email` check it still runs. That skipping is not modelled. The password's `min(6)` counts UTF-16 code units, where the model counts characters: "abcd😀" is 5 characters and 6 code units, so the library accepts it and the model reports `PasswordMessage`.
- Auth.ValidateLogin: lengths are counted in characters, where the library counts UTF-16 code units.
- Initials.UpperChar: upper-cases only `a`-`z`, while `toUpperCase` also maps other scripts and Latin letters outside `a`-`z` ("é" to "É"), and can change the length ("ß" becomes "SS"), which changes what `substring(0, 2)` keeps. `part[0]` is read as a character, where it is a UTF-16 unit.
- Header: the dropdown of the signed-in user, sign-out, and the mobile-menu layout are presentational or call the authentication service.
- Profile.HandleSubmit: the toast's title and description go through `t`. The model keeps which toast is shown and the error message, not the rendered text.
- AdviceForm.SameResponseIff: the crop, soil and water fields are Selects on the page, but the model takes all three as strings, so this lemma and `SoilAndRegionAmbiguous` also range over values the page cannot produce; `SelectedSoilResponseIff` restricts the soil to the Select's options.
- Auth.AfterLogin: the model's flag is whether `signIn` (and for `Auth.AfterSignup`, `signUp`) returned without throwing. The authentication service is not part of this model, so whether a failed sign-in throws, rather than returning an error, is not established.
- AdviceForm.BuildResponse: the equality of the whole practice strings is stated through `SameResponseIff` and not spelled out character by character.
- The marketing sections (hero, features, call to action, footer) appear only through their dictionary entries.

=== FILE: advice_form.dfy ===
/** The crop-advice form: its initial values and the canned advice it builds
    from a submission. */
module AdviceForm {
  /** The six form fields. Crop, soil and water availability come from
      Selects on the page (`CropOptions`, `SoilOptions`, `WaterOptions`, each
      with "" while untouched); land size, region and the details are typed
      in. All six are strings here. */
  datatype FormValues = FormValues(
    cropType: string,
    soilType: string,
    landSize: string,
    region: string,
    waterAvailability: string,
    additionalInfo: string)

  /** The values the three Selects can produce, "" standing for untouched. */
  const CropOptions: set<string> := {"", "rice", "wheat", "maize", "sugarcane", "cotton"}
  const SoilOptions: set<string> := {"", "clay", "sandy", "loam", "silt", "black"}
  const WaterOptions: set<string> := {"", "abundant", "adequate", "limited", "scarce"}

  /** `defaultValues`: every field empty. */
  const FormDefaults: FormValues := FormValues("", "", "", "", "", "")

  /** One crop recommendation. */
  datatype Recommendation = Recommendation(
    cropName: string,
    bestPractices: seq<string>,
    expectedYield: string,
    timeline: string,
    marketValue: string)

  /** The advice handed to the page; `soilHealth` and `waterManagement`
      stand for the `recommendations` lists nested under those names. */
  datatype AdviceResult = AdviceResult(
    recommendations: seq<Recommendation>,
    soilHealth: seq<string>,
    waterManagement: seq<string>)

  const FertilizerPractice: string := "Apply organic fertilizers for better yield."
  const PestPractice: string := "Monitor for pests regularly, especially during early growth stages."
  const ExpectedYield: string := "15-20 quintals per acre"
  const Timeline: string := "3-4 months to harvest"
  const MarketValue: string := "Rs. 2000-2500 per quintal"

  const SoilHealth: seq<string> := [
    "Add organic matter to improve soil structure",
    "Consider crop rotation to maintain soil nutrients",
    "Test soil pH before planting"
  ]

  const WaterManagement: seq<string> := [
    "Implement drip irrigation for water conservation",
    "Morning watering is most effective",
    "Consider rainwater harvesting to supplement irrigation"
  ]

  /** The watering practice is the crop's lead-in, the water availability,
      and a fixed tail. */
  function WateringLead(crop: string): string {
    "Water " + crop + " regularly according to the "
  }

  const WateringTail: string := " water availability in your region."

  function WateringPractice(crop: string, water: string): string {
    WateringLead(crop) + water + WateringTail
  }

  /** The soil practice names the soil and the region, then the crop. */
  function SoilPlace(soil: string, region: string): string {
    soil + " soil in " + region
  }

  function SoilTail(crop: string): string {
    " is excellent for " + crop + " cultivation."
  }

  function SoilPractice(soil: string, region: string, crop: string): string {
    SoilPlace(soil, region) + SoilTail(crop)
  }

  /** `mockResponse`: one recommendation for the submitted crop, two
      practices built from the input and two fixed ones, and fixed soil and
      water advice. */
  function BuildResponse(v: FormValues): (r: AdviceResult)
    ensures |r.recommendations| == 1
    ensures r.recommendations[0].cropName == v.cropType
    ensures |r.recommendations[0].bestPractices| == 4
    ensures r.recommendations[0].bestPractices[2..] == [FertilizerPractice, PestPractice]
    ensures r.recommendations[0].expectedYield == ExpectedYield
    ensures r.recommendations[0].timeline == Timeline
    ensures r.recommendations[0].marketValue == MarketValue
    ensures r.soilHealth == SoilHealth && r.waterManagement == WaterManagement
  {
    AdviceResult(
      [Recommendation(
        v.cropType,
        [ WateringPractice(v.cropType, v.waterAvailability),
          SoilPractice(v.soilType, v.region, v.cropType),
          FertilizerPractice,
          PestPractice ],
        ExpectedYield,
        Timeline,
        MarketValue)],
      SoilHealth,
      WaterManagement)
  }

  /** Equal strings with a common prefix agree after it. */
  lemma CancelPrefix(p: string, a: string, b: string)
    requires p + a == p + b
    ensures a == b
  {
    assert a == (p + a)[|p|..];
    assert b == (p + b)[|p|..];
  }

  /** Equal strings with a common suffix agree before it. */
  lemma CancelSuffix(a: string, b: string, s: string)
    requires a + s == b + s
    ensures a == b
  {
    assert |a| == |b|;
    assert a == (a + s)[..|a|];
    assert b == (b + s)[..|b|];
  }

  /** Two submissions get the same advice exactly when they name the same
      crop, the same water availability, and the same "soil in region"
      phrase. */
  lemma {:induction false} SameResponseIff(a: FormValues, b: FormValues)
    ensures BuildResponse(a) == BuildResponse(b) <==>
      (&& a.cropType == b.cropType
       && a.waterAvailability == b.waterAvailability
       && SoilPlace(a.soilType, a.region) == SoilPlace(b.soilType, b.region))
  {
    if BuildResponse(a) == BuildResponse(b) {
      var ra := BuildResponse(a).recommendations[0];
      var rb := BuildResponse(b).recommendations[0];
      assert a.cropType == b.cropType by {
        assert ra.cropName == rb.cropName;
      }
      assert ra.bestPractices[0] == rb.bestPractices[0];
      assert ra.bestPractices[1] == rb.bestPractices[1];
      CancelSuffix(WateringLead(a.cropType) + a.waterAvailability,
                   WateringLead(a.cropType) + b.waterAvailability, WateringTail);
      CancelPrefix(WateringLead(a.cropType), a.waterAvailability, b.waterAvailability);
      CancelSuffix(SoilPlace(a.soilType, a.region), SoilPlace(b.soilType, b.region), SoilTail(a.cropType));
    }
  }

  /** The land size and the free-text details never change the advice. */
  lemma IgnoresLandSizeAndDetails(v: FormValues, landSize: string, additionalInfo: string)
    ensures BuildResponse(v.(landSize := landSize, additionalInfo := additionalInfo)) == BuildResponse(v)
  {
  }

  /** On arbitrary strings the builder cannot tell soil from region: a soil
      typed as "black soil in Punjab" reads like another split of the
      phrase. The page's soil Select cannot produce such a soil
      (`SelectedSoilResponseIff`). */
  lemma SoilAndRegionAmbiguous()
    ensures var a := FormValues("rice", "black", "", "Punjab soil in Haryana", "high", "");
            var b := FormValues("rice", "black soil in Punjab", "", "Haryana", "high", "");
            a.soilType != b.soilType && BuildResponse(a) == BuildResponse(b)
  {
    var a := FormValues("rice", "black", "", "Punjab soil in Haryana", "high", "");
    var b := FormValues("rice", "black soil in Punjab", "", "Haryana", "high", "");
    assert SoilPlace(a.soilType, a.region) == SoilPlace(b.soilType, b.region);
    SameResponseIff(a, b);
  }

  /** No soil the Select offers contains a space. */
  lemma SoilOptionsSpaceFree(soil: string)
    requires soil in SoilOptions
    ensures ' ' !in soil
  {
  }

  /** A shorter soil puts the phrase's space where a longer, space-free soil
      still has a letter. */
  lemma ShorterSoilDiffers(s1: string, r1: string, s2: string, r2: string)
    requires ' ' !in s2 && |s1| < |s2|
    ensures SoilPlace(s1, r1) != SoilPlace(s2, r2)
  {
    assert SoilPlace(s1, r1)[|s1|] == ' ';
    assert SoilPlace(s2, r2)[|s1|] == s2[|s1|];
  }

  /** For soils without a space, the "soil in region" phrase gives back both
      the soil and the region. */
  lemma {:induction false} SoilPlaceInjective(s1: string, r1: string, s2: string, r2: string)
    requires ' ' !in s1 && ' ' !in s2
    requires SoilPlace(s1, r1) == SoilPlace(s2, r2)
    ensures s1 == s2 && r1 == r2
  {
    var x := SoilPlace(s1, r1);
    assert x == s1 + (" soil in " + r1);
    assert x == s2 + (" soil in " + r2);
    if |s1| < |s2| {
      ShorterSoilDiffers(s1, r1, s2, r2);
    } else if |s2| < |s1| {
      ShorterSoilDiffers(s2, r2, s1, r1);
    }
    assert s1 == x[..|s1|] == s2;
    CancelPrefix(s1 + " soil in ", r1, r2);
  }

  /** With the soil taken from the Select, two submissions get the same
      advice exactly when crop, soil, region and water availability agree. */
  lemma SelectedSoilResponseIff(a: FormValues, b: FormValues)
    requires a.soilType in SoilOptions && b.soilType in SoilOptions
    ensures BuildResponse(a) == BuildResponse(b) <==>
      (&& a.cropType == b.cropType
       && a.soilType == b.soilType
       && a.region == b.region
       && a.waterAvailability == b.waterAvailability)
  {
    SameResponseIff(a, b);
    if SoilPlace(a.soilType, a.region) == SoilPlace(b.soilType, b.region) {
      SoilOptionsSpaceFree(a.soilType);
      SoilOptionsSpaceFree(b.soilType);
      SoilPlaceInjective(a.soilType, a.region, b.soilType, b.region);
    }
  }

  /** No field carries a validation rule, so the untouched form submits and
      gets advice for the empty crop name. */
  lemma DefaultsBuildEmptyCropAdvice()
    ensures BuildResponse(FormDefaults).recommendations[0].cropName == ""
  {
  }
}

=== FILE: advice_page.dfy ===
/** The crop-advice page: the sign-in guard and the switch between the form
    and the results. */
module AdvicePage {
  import opened Wrappers
  import opened AdviceForm

  /** The page's own state: the advice received, if any. */
  datatype AdvicePageState = AdvicePageState(adviceResult: Option<AdviceResult>)

  /** `useState(null)`. */
  const InitialAdvicePage: AdvicePageState := AdvicePageState(None)

  /** What the page renders. */
  datatype AdviceView =
    | Redirect(to: string, replace: bool)
    | ShowForm
    | ShowResults(result: AdviceResult)

  /** Without a user once loading has finished, the page replaces itself
      with the sign-in page; otherwise it shows the form until advice
      arrives, then the advice. */
  function View(s: AdvicePageState, hasUser: bool, isLoading: bool): (v: AdviceView)
    ensures v.Redirect? <==> !isLoading && !hasUser
    ensures v.Redirect? ==> v.to == "/auth" && v.replace
    ensures !v.Redirect? ==> (v == ShowForm <==> s.adviceResult == None)
    ensures v.ShowResults? ==> s.adviceResult == Some(v.result)
  {
    if !isLoading && !hasUser then Redirect("/auth", true)
    else match s.adviceResult
      case None => ShowForm
      case Some(r) => ShowResults(r)
  }

  /** The form's `setAdviceResult(mockResponse)`. */
  function Submit(s: AdvicePageState, v: FormValues): (s': AdvicePageState)
    ensures s'.adviceResult == Some(BuildResponse(v))
  {
    AdvicePageState(Some(BuildResponse(v)))
  }

  /** The results view's `onReset`. */
  function Reset(s: AdvicePageState): (s': AdvicePageState)
    ensures s'.adviceResult == None
  {
    AdvicePageState(None)
  }

  /** While the session loads nothing redirects, user or not. */
  lemma NoRedirectWhileLoading(s: AdvicePageState, hasUser: bool)
    ensures !View(s, hasUser, true).Redirect?
  {
  }

  /** A signed-in user starts at the form, sees the advice for what they
      submit, and is back at the form after a reset. */
  lemma FormResultsCycle(v: FormValues, isLoading: bool)
    ensures View(InitialAdvicePage, true, isLoading) == ShowForm
    ensures View(Submit(InitialAdvicePage, v), true, isLoading) == ShowResults(BuildResponse(v))
    ensures View(Reset(Submit(InitialAdvicePage, v)), true, isLoading) == ShowForm
  {
  }
}

=== FILE: auth.dfy ===
/** The sign-in page: the two validation schemas, the signup payload and the
    page's tab and redirect transitions. */
module Auth {
  import opened Wrappers

  /** The fields the schemas check. */
  datatype Field = Email | Password | ConfirmPassword | FullName | UserType

  /** A validation message: one of the schema's own texts, or the library's
      default message for a malformed email, a too-short string or a value
      outside an enumeration. */
  datatype Message = Text(text: string) | InvalidEmail | TooShort(minimum: nat) | InvalidOption

  /** One reported problem, attached to a field. */
  datatype Issue = Issue(field: Field, message: Message)

  const PasswordMessage: string := "Password must be at least 6 characters"
  const FullNameMessage: string := "Full name is required"
  const MismatchMessage: string := "Passwords do not match"

  /** The minimum password length of both schemas. */
  const MinPassword: nat := 6

  /** The values of the login form. */
  datatype LoginValues = LoginValues(email: string, password: string)

  /** The values of the signup form; the user type is whatever string the
      form holds. */
  datatype SignupValues = SignupValues(
    email: string,
    password: string,
    confirmPassword: string,
    fullName: string,
    userType: string)

  /** The user types the schema's enumeration admits. */
  predicate KnownUserType(t: string) {
    t == "farmer" || t == "expert"
  }

  /** Every rule of the signup schema. Email well-formedness is the
      library's own check, passed in as `validEmail`. */
  predicate SignupRulesHold(v: SignupValues, validEmail: string -> bool) {
    && validEmail(v.email)
    && |v.password| >= MinPassword
    && |v.fullName| >= 1
    && KnownUserType(v.userType)
    && v.password == v.confirmPassword
  }

  /** The issue a failed rule reports, or none. */
  function Unless(ok: bool, issue: Issue): (r: seq<Issue>)
    ensures issue in r <==> !ok
    ensures forall x :: x in r ==> x == issue
  {
    if ok then [] else [issue]
  }

  /** No issue is reported twice. */
  predicate Distinct(issues: seq<Issue>) {
    forall i, j :: 0 <= i < j < |issues| ==> issues[i] != issues[j]
  }

  /** Appending a failed rule's issue that is not yet reported keeps the
      issues distinct. */
  lemma AppendDistinct(acc: seq<Issue>, ok: bool, issue: Issue)
    requires Distinct(acc) && issue !in acc
    ensures Distinct(acc + Unless(ok, issue))
  {
    if !ok {
      var s := acc + [issue];
      forall i, j | 0 <= i < j < |s| ensures s[i] != s[j] {
        if j == |acc| {
          assert s[i] == acc[i];
        }
      }
    }
  }

  /** `loginSchema`: the issues in field order. */
  function ValidateLogin(v: LoginValues, validEmail: string -> bool): (issues: seq<Issue>)
    ensures Issue(Email, InvalidEmail) in issues <==> !validEmail(v.email)
    ensures Issue(Password, TooShort(MinPassword)) in issues <==> |v.password| < MinPassword
    ensures issues == [] <==> validEmail(v.email) && |v.password| >= MinPassword
    ensures |issues| <= 2
    ensures Distinct(issues)
    ensures forall x :: x in issues ==> x in [Issue(Email, InvalidEmail), Issue(Password, TooShort(MinPassword))]
  {
    Unless(validEmail(v.email), Issue(Email, InvalidEmail))
    + Unless(|v.password| >= MinPassword, Issue(Password, TooShort(MinPassword)))
  }

  /** `signupSchema`: the field rules in field order, then the refinement
      that the confirmation equals the password, reported on the
      confirmation field. */
  function ValidateSignup(v: SignupValues, validEmail: string -> bool): (issues: seq<Issue>)
    ensures Issue(Email, InvalidEmail) in issues <==> !validEmail(v.email)
    ensures Issue(Password, Text(PasswordMessage)) in issues <==> |v.password| < MinPassword
    ensures Issue(FullName, Text(FullNameMessage)) in issues <==> v.fullName == ""
    ensures Issue(UserType, InvalidOption) in issues <==> !KnownUserType(v.userType)
    ensures Issue(ConfirmPassword, Text(MismatchMessage)) in issues <==> v.password != v.confirmPassword
    ensures forall x :: x in issues ==> x in [Issue(Email, InvalidEmail), Issue(Password, Text(PasswordMessage)),
      Issue(FullName, Text(FullNameMessage)), Issue(UserType, InvalidOption), Issue(ConfirmPassword, Text(MismatchMessage))]
    ensures |issues| <= 5
  {
    Unless(validEmail(v.email), Issue(Email, InvalidEmail))
    + Unless(|v.password| >= MinPassword, Issue(Password, Text(PasswordMessage)))
    + Unless(|v.fullName| >= 1, Issue(FullName, Text(FullNameMessage)))
    + Unless(KnownUserType(v.userType), Issue(UserType, InvalidOption))
    + Unless(v.password == v.confirmPassword, Issue(ConfirmPassword, Text(MismatchMessage)))
  }

  /** The signup issues name each failed rule once: at most five, none
      twice. */
  lemma SignupIssuesDistinct(v: SignupValues, validEmail: string -> bool)
    ensures Distinct(ValidateSignup(v, validEmail))
  {
    var email := Unless(validEmail(v.email), Issue(Email, InvalidEmail));
    AppendDistinct([], validEmail(v.email), Issue(Email, InvalidEmail));
    assert [] + email == email;
    var password := email + Unless(|v.password| >= MinPassword, Issue(Password, Text(PasswordMessage)));
    AppendDistinct(email, |v.password| >= MinPassword, Issue(Password, Text(PasswordMessage)));
    var name := password + Unless(|v.fullName| >= 1, Issue(FullName, Text(FullNameMessage)));
    AppendDistinct(password, |v.fullName| >= 1, Issue(FullName, Text(FullNameMessage)));
    var userType := name + Unless(KnownUserType(v.userType), Issue(UserType, InvalidOption));
    AppendDistinct(name, KnownUserType(v.userType), Issue(UserType, InvalidOption));
    AppendDistinct(userType, v.password == v.confirmPassword, Issue(ConfirmPassword, Text(MismatchMessage)));
  }

  /** The signup form is accepted exactly when every rule holds. */
  lemma SignupAcceptedIff(v: SignupValues, validEmail: string -> bool)
    ensures ValidateSignup(v, validEmail) == [] <==> SignupRulesHold(v, validEmail)
  {
    var issues := ValidateSignup(v, validEmail);
    if !SignupRulesHold(v, validEmail) {
      if !validEmail(v.email) {
        assert Issue(Email, InvalidEmail) in issues;
      } else if |v.password| < MinPassword {
        assert Issue(Password, Text(PasswordMessage)) in issues;
      } else if v.fullName == "" {
        assert Issue(FullName, Text(FullNameMessage)) in issues;
      } else if !KnownUserType(v.userType) {
        assert Issue(UserType, InvalidOption) in issues;
      } else {
        assert Issue(ConfirmPassword, Text(MismatchMessage)) in issues;
      }
    }
  }

  /** The login form's initial values. */
  const LoginDefaults: LoginValues := LoginValues("", "")

  /** The signup form's initial values. */
  const SignupDefaults: SignupValues := SignupValues("", "", "", "", "farmer")

  /** The untouched forms are rejected whatever the email check says: the
      empty password is too short, and the empty name is missing. */
  lemma DefaultsRejected(validEmail: string -> bool)
    ensures Issue(Password, TooShort(MinPassword)) in ValidateLogin(LoginDefaults, validEmail)
    ensures Issue(Password, Text(PasswordMessage)) in ValidateSignup(SignupDefaults, validEmail)
    ensures Issue(FullName, Text(FullNameMessage)) in ValidateSignup(SignupDefaults, validEmail)
    ensures Issue(UserType, InvalidOption) !in ValidateSignup(SignupDefaults, validEmail)
    ensures Issue(ConfirmPassword, Text(MismatchMessage)) !in ValidateSignup(SignupDefaults, validEmail)
  {
  }

  /** `userData`: the submitted values without the confirmation. */
  datatype SignupPayload = SignupPayload(email: string, password: string, fullName: string, userType: string)

  /** `const { confirmPassword, ...userData } = values`. */
  function StripConfirm(v: SignupValues): (p: SignupPayload)
    ensures p.email == v.email && p.password == v.password
    ensures p.fullName == v.fullName && p.userType == v.userType
  {
    SignupPayload(v.email, v.password, v.fullName, v.userType)
  }

  /** The inverse view: the payload with a confirmation put back. */
  function WithConfirm(p: SignupPayload, confirmPassword: string): (v: SignupValues)
    ensures v.confirmPassword == confirmPassword
  {
    SignupValues(p.email, p.password, confirmPassword, p.fullName, p.userType)
  }

  /** Stripping loses the confirmation and nothing else. */
  lemma StripConfirmRoundTrip(v: SignupValues, p: SignupPayload, c: string)
    ensures WithConfirm(StripConfirm(v), v.confirmPassword) == v
    ensures StripConfirm(WithConfirm(p, c)) == p
  {
  }

  /** An accepted signup sends a payload whose password was confirmed. */
  lemma AcceptedPayload(v: SignupValues, validEmail: string -> bool)
    requires ValidateSignup(v, validEmail) == []
    ensures StripConfirm(v).password == v.confirmPassword
    ensures |StripConfirm(v).password| >= MinPassword
    ensures KnownUserType(StripConfirm(v).userType)
  {
    SignupAcceptedIff(v, validEmail);
  }

  /** The two tabs of the page. */
  datatype Tab = LoginTab | SignupTab

  /** The page's own state. */
  datatype AuthPage = AuthPage(activeTab: Tab, isSubmitting: bool)

  /** Both flags as the page mounts. */
  const InitialAuthPage: AuthPage := AuthPage(LoginTab, false)

  /** The user picks a tab. */
  function ChooseTab(s: AuthPage, tab: Tab): (s': AuthPage)
    ensures s'.activeTab == tab && s'.isSubmitting == s.isSubmitting
  {
    s.(activeTab := tab)
  }

  /** Either form is submitted: `setIsSubmitting(true)`. */
  function BeginSubmit(s: AuthPage): (s': AuthPage)
    ensures s'.isSubmitting && s'.activeTab == s.activeTab
  {
    s.(isSubmitting := true)
  }

  /** A signup submission, once `signUp` has settled: back to the login tab
      when the call returned without throwing, where it was when it threw,
      and no longer submitting either way. The payload sent is
      `StripConfirm(v)`. */
  function AfterSignup(s: AuthPage, returned: bool): (s': AuthPage)
    ensures !s'.isSubmitting
    ensures returned ==> s'.activeTab == LoginTab
    ensures !returned ==> s'.activeTab == s.activeTab
  {
    AuthPage(if returned then LoginTab else s.activeTab, false)
  }

  /** Where a login submission navigates, once `signIn` has settled:
      `returned` is whether the call returned without throwing. */
  function AfterLogin(s: AuthPage, returned: bool): (r: (AuthPage, Option<string>))
    ensures !r.0.isSubmitting && r.0.activeTab == s.activeTab
    ensures r.1.Some? <==> returned
    ensures r.1.Some? ==> r.1.value == "/"
  {
    (s.(isSubmitting := false), if returned then Some("/") else None)
  }

  /** What the page renders. */
  datatype AuthView = RedirectHome | Forms(tab: Tab)

  /** A signed-in user whose session has finished loading is sent home;
      otherwise the forms show. */
  function View(s: AuthPage, hasUser: bool, isLoading: bool): (v: AuthView)
    ensures v == RedirectHome <==> hasUser && !isLoading
    ensures v.Forms? ==> v.tab == s.activeTab
  {
    if hasUser && !isLoading then RedirectHome else Forms(s.activeTab)
  }

  /** A signup that succeeds from the signup tab lands on the login form. */
  lemma SignupReturnsToLogin(hasUser: bool)
    ensures View(AfterSignup(BeginSubmit(ChooseTab(InitialAuthPage, SignupTab)), true), false, false) == Forms(LoginTab)
    ensures View(AfterSignup(BeginSubmit(ChooseTab(InitialAuthPage, SignupTab)), false), false, false) == Forms(SignupTab)
    ensures View(InitialAuthPage, hasUser, true) == Forms(LoginTab)
  {
  }
}

=== FILE: header.dfy ===
/** The site header: the mobile-menu flag and the navigation items. The
    avatar initials are in `Initials`. */
module Header {
  import opened Wrappers
  import opened Translations

  /** The header's own state: whether the mobile menu is open. */
  datatype HeaderState = HeaderState(mobileMenuOpen: bool)

  /** `useState(false)`: the menu starts closed. */
  const InitialHeader: HeaderState := HeaderState(false)

  /** `toggleMobileMenu`. */
  function ToggleMobileMenu(h: HeaderState): (h': HeaderState)
    ensures h'.mobileMenuOpen != h.mobileMenuOpen
  {
    HeaderState(!h.mobileMenuOpen)
  }

  /** Toggling twice restores the state; from the start, an odd number of
      toggles opens the menu. */
  lemma ToggleTwice(h: HeaderState)
    ensures ToggleMobileMenu(ToggleMobileMenu(h)) == h
    ensures !InitialHeader.mobileMenuOpen && ToggleMobileMenu(InitialHeader).mobileMenuOpen
  {
  }

  /** One entry of `menuItems`, before its key is translated. */
  datatype MenuItem = MenuItem(key: string, href: string)

  /** The four navigation entries in order. */
  const MenuItems: seq<MenuItem> := [
    MenuItem("nav.home", "/"),
    MenuItem("nav.services", "/#services"),
    MenuItem("nav.about", "/#about"),
    MenuItem("nav.contact", "/#contact")
  ]

  /** A rendered navigation link. */
  datatype Link = Link(text: string, href: string)

  /** The links as rendered: every label goes through `t`. */
  function MenuLinks(c: Context): (r: Option<seq<Link>>)
    ensures r.Some? <==> (c.DefaultContext? || Supported(c.provider.language))
    ensures r.Some? ==> |r.value| == |MenuItems|
    ensures r.Some? ==> forall i :: 0 <= i < |MenuItems| ==>
      r.value[i].href == MenuItems[i].href && Some(r.value[i].text) == ContextTranslate(c, MenuItems[i].key)
  {
    Links(c, MenuItems)
  }

  /** The four navigation entries with the keys the dictionaries write
      them under, as the footer asks for them. */
  const IntendedMenuItems: seq<MenuItem> := [
    MenuItem("home", "/"),
    MenuItem("services", "/#services"),
    MenuItem("about", "/#about"),
    MenuItem("contact", "/#contact")
  ]

  /** The menu built from `IntendedMenuItems`. */
  function IntendedMenuLinks(c: Context): (r: Option<seq<Link>>)
    ensures r.Some? <==> (c.DefaultContext? || Supported(c.provider.language))
    ensures r.Some? ==> |r.value| == |IntendedMenuItems|
    ensures r.Some? ==> forall i :: 0 <= i < |IntendedMenuItems| ==>
      r.value[i].href == IntendedMenuItems[i].href && Some(r.value[i].text) == ContextTranslate(c, IntendedMenuItems[i].key)
  {
    Links(c, IntendedMenuItems)
  }

  /** A menu of four items lists them in order, each under its translated
      label. */
  lemma FourLinksInOrder(c: Context, items: seq<MenuItem>, a: string, b: string, d: string, e: string)
    requires |items| == 4
    requires ContextTranslate(c, items[0].key) == Some(a)
    requires ContextTranslate(c, items[1].key) == Some(b)
    requires ContextTranslate(c, items[2].key) == Some(d)
    requires ContextTranslate(c, items[3].key) == Some(e)
    ensures Links(c, items) == Some([Link(a, items[0].href), Link(b, items[1].href),
                                     Link(d, items[2].href), Link(e, items[3].href)])
  {
    var links := Links(c, items).value;
    assert links == [links[0], links[1], links[2], links[3]];
  }

  /** The menu lists home, services, about and contact, in that order, each
      under its translated label. */
  lemma MenuInOrder(c: Context, home: string, services: string, about: string, contact: string)
    requires ContextTranslate(c, "nav.home") == Some(home)
    requires ContextTranslate(c, "nav.services") == Some(services)
    requires ContextTranslate(c, "nav.about") == Some(about)
    requires ContextTranslate(c, "nav.contact") == Some(contact)
    ensures MenuLinks(c) == Some([Link(home, "/"), Link(services, "/#services"),
                                  Link(about, "/#about"), Link(contact, "/#contact")])
  {
    var items := MenuItems;
    assert items[0].key == "nav.home" && items[1].key == "nav.services";
    assert items[2].key == "nav.about" && items[3].key == "nav.contact";
    FourLinksInOrder(c, items, home, services, about, contact);
  }

  /** The same for the menu built from the written keys. */
  lemma IntendedMenuInOrder(c: Context, home: string, services: string, about: string, contact: string)
    requires ContextTranslate(c, "home") == Some(home)
    requires ContextTranslate(c, "services") == Some(services)
    requires ContextTranslate(c, "about") == Some(about)
    requires ContextTranslate(c, "contact") == Some(contact)
    ensures IntendedMenuLinks(c) == Some([Link(home, "/"), Link(services, "/#services"),
                                          Link(about, "/#about"), Link(contact, "/#contact")])
  {
    var items := IntendedMenuItems;
    assert items[0].key == "home" && items[1].key == "services";
    assert items[2].key == "about" && items[3].key == "contact";
    FourLinksInOrder(c, items, home, services, about, contact);
  }

  /** Translates the labels of `items` in order. */
  function Links(c: Context, items: seq<MenuItem>): (r: Option<seq<Link>>)
    ensures r.Some? <==> (c.DefaultContext? || Supported(c.provider.language))
    ensures r.Some? ==> |r.value| == |items|
    ensures r.Some? ==> forall i :: 0 <= i < |items| ==>
      r.value[i].href == items[i].href && Some(r.value[i].text) == ContextTranslate(c, items[i].key)
  {
    if |items| == 0 then
      if c.DefaultContext? || Supported(c.provider.language) then Some([]) else None
    else
      match (ContextTranslate(c, items[0].key), Links(c, items[1..]))
      case (Some(text), Some(rest)) => Some([Link(text, items[0].href)] + rest)
      case _ => None
  }
}

=== FILE: initials.dfy ===
/** The header's avatar initials: `getInitials` with JavaScript's `split`,
    `join`, `toUpperCase` and `substring`. */
module Initials {
  import opened Wrappers

  /** `s.split(' ')` with JavaScript's meaning: cut at every single space,
      keeping the empty parts between adjacent spaces and at either end. */
  function Split(s: string): (parts: seq<string>)
    ensures |parts| >= 1
    ensures forall i :: 0 <= i < |parts| ==> ' ' !in parts[i]
    ensures |parts| == SpaceCount(s) + 1
  {
    if |s| == 0 then [""]
    else
      var rest := Split(s[1..]);
      if s[0] == ' ' then [""] + rest
      else [[s[0]] + rest[0]] + rest[1..]
  }

  /** The number of spaces in `s`. */
  function SpaceCount(s: string): nat {
    if |s| == 0 then 0 else (if s[0] == ' ' then 1 else 0) + SpaceCount(s[1..])
  }

  /** `parts.join(' ')`. */
  function Join(parts: seq<string>): string
    requires |parts| >= 1
  {
    if |parts| == 1 then parts[0] else parts[0] + " " + Join(parts[1..])
  }

  /** Splitting at the spaces and joining with spaces gives the name back. */
  lemma {:induction false} JoinSplit(s: string)
    ensures Join(Split(s)) == s
  {
    if |s| > 0 {
      JoinSplit(s[1..]);
      var rest := Split(s[1..]);
      if s[0] == ' ' {
        assert ([""] + rest)[1..] == rest;
        assert Join([""] + rest) == "" + " " + Join(rest);
        assert s == [s[0]] + s[1..];
      } else {
        JoinHead(s[0], rest);
        assert s == [s[0]] + s[1..];
      }
    }
  }

  /** Prefixing the first part prefixes the joined string. */
  lemma JoinHead(c: char, parts: seq<string>)
    requires |parts| >= 1
    ensures Join([[c] + parts[0]] + parts[1..]) == [c] + Join(parts)
  {
    if |parts| > 1 {
      assert ([[c] + parts[0]] + parts[1..])[1..] == parts[1..];
    }
  }

  /** Joining space-free parts and splitting again gives the parts back. */
  lemma {:induction false} SplitJoin(parts: seq<string>)
    requires |parts| >= 1
    requires forall i :: 0 <= i < |parts| ==> ' ' !in parts[i]
    ensures Split(Join(parts)) == parts
  {
    if |parts| == 1 {
      SplitSpaceFree(parts[0]);
    } else {
      SplitJoin(parts[1..]);
      SplitThenSpace(parts[0], Join(parts[1..]));
    }
  }

  /** A space-free string is one part. */
  lemma {:induction false} SplitSpaceFree(w: string)
    requires ' ' !in w
    ensures Split(w) == [w]
  {
    if |w| > 0 {
      assert ' ' !in w[1..] by {
        forall i | 0 <= i < |w[1..]|
          ensures w[1..][i] != ' '
        {
          assert w[1..][i] == w[i + 1];
        }
      }
      SplitSpaceFree(w[1..]);
      assert [w[0]] + w[1..] == w;
    }
  }

  /** A space-free word, a space, then anything: the word is the first part. */
  lemma {:induction false} SplitThenSpace(w: string, t: string)
    requires ' ' !in w
    ensures Split(w + " " + t) == [w] + Split(t)
  {
    if |w| == 0 {
      assert w + " " + t == [' '] + t;
      assert ([' '] + t)[1..] == t;
    } else {
      assert ' ' !in w[1..] by {
        forall i | 0 <= i < |w[1..]|
          ensures w[1..][i] != ' '
        {
          assert w[1..][i] == w[i + 1];
        }
      }
      SplitThenSpace(w[1..], t);
      assert (w + " " + t)[1..] == w[1..] + " " + t;
      assert [w[0]] + w[1..] == w;
    }
  }

  /** `parts.map(part => part[0]).join('')`: an empty part maps to
      `undefined`, which `join` writes as nothing. */
  function FirstChars(parts: seq<string>): string {
    if |parts| == 0 then ""
    else (if |parts[0]| > 0 then [parts[0][0]] else "") + FirstChars(parts[1..])
  }

  /** `toUpperCase` on one character, for the Latin letters a-z. */
  function UpperChar(c: char): char {
    if 'a' <= c <= 'z' then (c as int - 32) as char else c
  }

  /** `toUpperCase`, character by character. */
  function Upper(s: string): (u: string)
    ensures |u| == |s|
    ensures forall i :: 0 <= i < |s| ==> u[i] == UpperChar(s[i])
  {
    if |s| == 0 then "" else [UpperChar(s[0])] + Upper(s[1..])
  }

  /** `substring(0, n)`. */
  function Prefix(s: string, n: nat): (r: string)
    ensures |r| <= n && |r| <= |s|
    ensures r == s[..|r|]
    ensures |s| >= n ==> |r| == n
  {
    if |s| <= n then s else s[..n]
  }

  /** `getInitials(name)`: `None` stands for null and undefined. */
  function GetInitials(name: Option<string>): (r: string)
    ensures |r| <= 2
    ensures name == None || name == Some("") ==> r == "U"
  {
    if name == None || name == Some("") then "U"
    else Prefix(Upper(FirstChars(Split(name.value))), 2)
  }

  /** An independent account of the initials: the characters of `s` that
      are not spaces and start a word, i.e. stand first or after a space. */
  function WordStarts(s: string, afterSpace: bool): string {
    if |s| == 0 then ""
    else (if s[0] != ' ' && afterSpace then [s[0]] else "") + WordStarts(s[1..], s[0] == ' ')
  }

  /** The first characters of the parts are exactly the word starts; and
      those of all parts but the first are the word starts past the first
      character. */
  lemma {:induction false} FirstCharsAreWordStarts(s: string)
    ensures FirstChars(Split(s)) == WordStarts(s, true)
    ensures FirstChars(Split(s)[1..]) == WordStarts(s, false)
  {
    if |s| > 0 {
      FirstCharsAreWordStarts(s[1..]);
      var rest := Split(s[1..]);
      if s[0] == ' ' {
        assert Split(s) == [""] + rest;
        assert (["" ] + rest)[1..] == rest;
      } else {
        var first := [s[0]] + rest[0];
        assert Split(s) == [first] + rest[1..];
        assert ([first] + rest[1..])[1..] == rest[1..];
      }
    }
  }

  /** For a non-empty name the initials are the first two word starts,
      upper-cased. */
  lemma InitialsAreWordStarts(s: string)
    requires s != ""
    ensures GetInitials(Some(s)) == Prefix(Upper(WordStarts(s, true)), 2)
  {
    FirstCharsAreWordStarts(s);
  }

  /** A name of spaces only has no word starts. */
  lemma {:induction false} NoWordStartsInSpaces(s: string, afterSpace: bool)
    requires forall i :: 0 <= i < |s| ==> s[i] == ' '
    ensures WordStarts(s, afterSpace) == ""
  {
    if |s| > 0 {
      NoWordStartsInSpaces(s[1..], true);
    }
  }

  /** A name of spaces only is not empty, so it is not given "U": its
      initials are the empty string. */
  lemma OnlySpaces(s: string)
    requires s != "" && forall i :: 0 <= i < |s| ==> s[i] == ' '
    ensures GetInitials(Some(s)) == ""
  {
    InitialsAreWordStarts(s);
    NoWordStartsInSpaces(s, true);
  }

  /** Only the space character separates parts: a tab stays inside one. */
  lemma TabIsNotASeparator()
    ensures GetInitials(Some("a\tb c")) == "AC"
  {
    InitialsAreWordStarts("a\tb c");
  }

  /** Two words give the upper-cased first letters of both; the empty
      parts from a leading, a doubled and a trailing space add nothing. */
  lemma TwoWords()
    ensures GetInitials(Some(" a  b ")) == "AB"
  {
    InitialsAreWordStarts(" a  b ");
  }
}

=== FILE: labels.dfy ===
/** Which of the keys the pages ask `t` for the dictionaries actually hold:
    the crop-advice pages are fully translated, while the header, the
    sign-in page and the profile page ask for keys no section writes, so
    they show the keys themselves in either language. */
module Labels {
  import opened Wrappers
  import opened Translations
  import opened TranslationKeys
  import LanguageFacts
  import Header
  import Profile

  /** A key no section of either dictionary writes: not a navigation name,
      and outside every dotted namespace the dictionaries use. */
  predicate Unwritten(k: string) {
    && k !in EnNavigation
    && !HasPrefix(k, "hero.") && !HasPrefix(k, "features.") && !HasPrefix(k, "cta.")
    && !HasPrefix(k, "footer.") && !HasPrefix(k, "language.") && !HasPrefix(k, "advice.")
  }

  /** A key whose first two characters begin none of the namespaces is
      outside all of them. */
  lemma OutsideByInitials(k: string)
    requires k !in EnNavigation && |k| >= 2
    requires k[0] != 'h' && k[0] != 'f' && k[0] != 'c' && k[0] != 'l'
    requires k[0] != 'a' || k[1] != 'd'
    ensures Unwritten(k)
  {
    NotPrefix(k, "hero.", 0);
    NotPrefix(k, "features.", 0);
    NotPrefix(k, "cta.", 0);
    NotPrefix(k, "footer.", 0);
    NotPrefix(k, "language.", 0);
    NotPrefix(k, "advice.", if k[0] != 'a' then 0 else 1);
  }

  /** A key that differs from `p` at one of `p`'s positions does not start
      with `p`. */
  lemma NotPrefix(k: string, p: string, i: nat)
    requires i < |p| && (i >= |k| || k[i] != p[i])
    ensures !HasPrefix(k, p)
  {
    if i < |k| && |p| <= |k| {
      assert k[..|p|][i] == k[i];
    }
  }

  /** An unwritten key is in neither dictionary. */
  lemma UnwrittenAbsent(k: string)
    requires Unwritten(k)
    ensures k !in Dict(En) && k !in Dict(Hi)
  {
    EnglishSeparated();
    AbsentKey(English, k);
    LanguageFacts.TranslatedInBoth(k);
  }

  /** Under either language, and without a provider, `t` shows an
      unwritten key as itself. */
  lemma ShownAsKey(c: Context, k: string)
    requires c.DefaultContext? || Supported(c.provider.language)
    requires Unwritten(k)
    ensures ContextTranslate(c, k) == Some(k)
  {
    UnwrittenAbsent(k);
  }

  /** The navigation keys lie outside every written namespace. */
  lemma NavigationKeysUnwritten()
    ensures Unwritten("nav.home") && Unwritten("nav.services")
    ensures Unwritten("nav.about") && Unwritten("nav.contact")
  {
    OutsideByInitials("nav.home");
    OutsideByInitials("nav.services");
    OutsideByInitials("nav.about");
    OutsideByInitials("nav.contact");
  }

  /** The header's menu shows its keys, not words, in both languages. */
  lemma MenuShowsKeys(c: Context)
    requires c.DefaultContext? || Supported(c.provider.language)
    ensures Header.MenuLinks(c) == Some([
      Header.Link("nav.home", "/"), Header.Link("nav.services", "/#services"),
      Header.Link("nav.about", "/#about"), Header.Link("nav.contact", "/#contact")])
  {
    NavigationKeysUnwritten();
    ShownAsKey(c, "nav.home");
    ShownAsKey(c, "nav.services");
    ShownAsKey(c, "nav.about");
    ShownAsKey(c, "nav.contact");
    Header.MenuInOrder(c, "nav.home", "nav.services", "nav.about", "nav.contact");
  }

  /** The navigation entries of each dictionary. */
  lemma NavigationEntries()
    ensures "home" in EnNavigation && EnNavigation["home"] == "Home"
    ensures "services" in EnNavigation && EnNavigation["services"] == "Services"
    ensures "about" in EnNavigation && EnNavigation["about"] == "About Us"
    ensures "contact" in EnNavigation && EnNavigation["contact"] == "Contact"
    ensures "home" in HiNavigation && HiNavigation["home"] == "होम"
    ensures "services" in HiNavigation && HiNavigation["services"] == "सेवाएं"
    ensures "about" in HiNavigation && HiNavigation["about"] == "हमारे बारे में"
    ensures "contact" in HiNavigation && HiNavigation["contact"] == "संपर्क करें"
  {
  }

  /** The navigation names as the English dictionary shows them. */
  lemma EnglishNavigation()
    ensures LookupIn(Dict(En), "home") == "Home"
    ensures LookupIn(Dict(En), "services") == "Services"
    ensures LookupIn(Dict(En), "about") == "About Us"
    ensures LookupIn(Dict(En), "contact") == "Contact"
  {
    NavigationEntries();
    EnglishSeparated();
    NavigationLookup(English, "home");
    NavigationLookup(English, "services");
    NavigationLookup(English, "about");
    NavigationLookup(English, "contact");
  }

  /** The navigation names as the Hindi dictionary shows them. */
  lemma HindiNavigation()
    ensures LookupIn(Dict(Hi), "home") == "होम"
    ensures LookupIn(Dict(Hi), "services") == "सेवाएं"
    ensures LookupIn(Dict(Hi), "about") == "हमारे बारे में"
    ensures LookupIn(Dict(Hi), "contact") == "संपर्क करें"
  {
    NavigationEntries();
    HindiSeparated();
    NavigationLookup(Hindi, "home");
    NavigationLookup(Hindi, "services");
    NavigationLookup(Hindi, "about");
    NavigationLookup(Hindi, "contact");
  }

  /** With the keys the dictionaries hold, the menu reads in English under
      English... */
  lemma IntendedMenuInEnglish(p: Provider)
    requires p.language == "en"
    ensures Header.IntendedMenuLinks(Provided(p)) == Some([
      Header.Link("Home", "/"), Header.Link("Services", "/#services"),
      Header.Link("About Us", "/#about"), Header.Link("Contact", "/#contact")])
  {
    EnglishNavigation();
    Header.IntendedMenuInOrder(Provided(p), "Home", "Services", "About Us", "Contact");
  }

  /** ...and in Hindi under Hindi. */
  lemma IntendedMenuInHindi(p: Provider)
    requires p.language == "hi"
    ensures Header.IntendedMenuLinks(Provided(p)) == Some([
      Header.Link("होम", "/"), Header.Link("सेवाएं", "/#services"),
      Header.Link("हमारे बारे में", "/#about"), Header.Link("संपर्क करें", "/#contact")])
  {
    HindiNavigation();
    Header.IntendedMenuInOrder(Provided(p), "होम", "सेवाएं", "हमारे बारे में", "संपर्क करें");
  }

  /** The header's title and account labels. */
  const HeaderKeys: seq<string> := ["title", "nav.login", "nav.profile", "nav.signOut"]

  /** The sign-in page's labels and messages. */
  const AuthKeys: seq<string> := [
    "appName", "auth.welcomeMessage", "auth.login", "auth.signup", "auth.email",
    "auth.password", "auth.confirmPassword", "auth.fullName", "auth.fullNamePlaceholder",
    "auth.userType", "auth.farmer", "auth.expert", "auth.signupSuccess", "auth.checkEmail"]

  /** The profile page's own labels and messages. */
  const ProfileKeys: seq<string> := [
    "profile.title", "profile.accountInfo", "profile.emailCannotChange", "profile.userType",
    "profile.personalInfo", "profile.avatarUrl", "profile.avatarUrlPlaceholder",
    "profile.avatarUrlHint", "profile.updateProfile", "profile.updating",
    "profile.updateSuccess", "profile.profileUpdated", "profile.updateError"]

  /** None of those keys is written. */
  lemma HeaderKeysUnwritten()
    ensures forall i :: 0 <= i < |HeaderKeys| ==> Unwritten(HeaderKeys[i])
  {
    forall i | 0 <= i < |HeaderKeys|
      ensures Unwritten(HeaderKeys[i])
    {
      OutsideByInitials(HeaderKeys[i]);
    }
  }

  lemma AuthKeysUnwritten()
    ensures forall i :: 0 <= i < |AuthKeys| ==> Unwritten(AuthKeys[i])
  {
    forall i | 0 <= i < |AuthKeys|
      ensures Unwritten(AuthKeys[i])
    {
      OutsideByInitials(AuthKeys[i]);
    }
  }

  lemma ProfileKeysUnwritten()
    ensures forall i :: 0 <= i < |ProfileKeys| ==> Unwritten(ProfileKeys[i])
  {
    forall i | 0 <= i < |ProfileKeys|
      ensures Unwritten(ProfileKeys[i])
    {
      OutsideByInitials(ProfileKeys[i]);
    }
  }

  /** So the header's title and account entries show as raw keys,
      whichever language is active. */
  lemma HeaderShowsKeys(c: Context, k: string)
    requires c.DefaultContext? || Supported(c.provider.language)
    requires k in HeaderKeys
    ensures ContextTranslate(c, k) == Some(k)
  {
    HeaderKeysUnwritten();
    ShownAsKey(c, k);
  }

  /** The same for every label of the sign-in page. */
  lemma AuthShowsKeys(c: Context, k: string)
    requires c.DefaultContext? || Supported(c.provider.language)
    requires k in AuthKeys
    ensures ContextTranslate(c, k) == Some(k)
  {
    AuthKeysUnwritten();
    ShownAsKey(c, k);
  }

  /** The same for every label of the profile page. */
  lemma ProfileShowsKeys(c: Context, k: string)
    requires c.DefaultContext? || Supported(c.provider.language)
    requires k in ProfileKeys
    ensures ContextTranslate(c, k) == Some(k)
  {
    ProfileKeysUnwritten();
    ShownAsKey(c, k);
  }

  /** The profile's user type reads as its own key, "auth.farmer" or
      "auth.expert". */
  lemma UserTypeShownAsKey(c: Context, profile: Option<Profile.ProfileRecord>)
    requires c.DefaultContext? || Supported(c.provider.language)
    ensures ContextTranslate(c, Profile.UserTypeKey(profile)) == Some(Profile.UserTypeKey(profile))
  {
    assert Profile.UserTypeKey(profile) in AuthKeys;
    AuthShowsKeys(c, Profile.UserTypeKey(profile));
  }

  /** A key written in a crop-advice section is a key of the dictionary. */
  lemma AdviceSectionKey(s: Sections, k: string)
    requires k in s.adviceHeading || k in s.formFirst || k in s.formSecond
          || k in s.success || k in s.error || k in s.results
    ensures k in Flatten(s)
  {
  }

  /** The keys the crop-advice page, its form and its results ask for. */
  const AdvicePageKeys: seq<string> := ["advice.title", "advice.subtitle"]

  const AdviceFormKeys: seq<string> := [
    "advice.form.title", "advice.form.cropType", "advice.form.selectCrop",
    "advice.form.soilType", "advice.form.selectSoil", "advice.form.landSize",
    "advice.form.region", "advice.form.waterAvailability", "advice.form.selectWater",
    "advice.form.additionalInfo", "advice.form.additionalInfoPlaceholder", "advice.form.submit",
    "advice.success.title", "advice.success.message", "advice.error.title", "advice.error.message"]

  const AdviceResultsKeys: seq<string> := [
    "advice.results.title", "advice.results.newAdvice", "advice.results.cropRecommendations",
    "advice.results.timeline", "advice.results.expectedYield", "advice.results.marketValue",
    "advice.results.bestPractices", "advice.results.soilManagement", "advice.results.waterManagement"]

  /** Every one of them is written in a crop-advice section of the English
      dictionary. */
  lemma AdvicePageKeysWritten()
    ensures forall i :: 0 <= i < |AdvicePageKeys| ==> AdvicePageKeys[i] in EnAdviceHeading
  {
  }

  lemma AdviceFormKeysWritten()
    ensures forall i :: 0 <= i < |AdviceFormKeys| ==>
      AdviceFormKeys[i] in EnAdviceFormFirst || AdviceFormKeys[i] in EnAdviceFormSecond
      || AdviceFormKeys[i] in EnAdviceSuccess || AdviceFormKeys[i] in EnAdviceError
  {
  }

  lemma AdviceResultsKeysWritten()
    ensures forall i :: 0 <= i < |AdviceResultsKeys| ==> AdviceResultsKeys[i] in EnAdviceResults
  {
  }

  /** So every key the crop-advice pages ask for is in both dictionaries. */
  lemma AdviceKeysTranslated(k: string)
    requires k in AdvicePageKeys || k in AdviceFormKeys || k in AdviceResultsKeys
    ensures k in Dict(En) && k in Dict(Hi)
  {
    AdvicePageKeysWritten();
    AdviceFormKeysWritten();
    AdviceResultsKeysWritten();
    AdviceSectionKey(English, k);
    LanguageFacts.TranslatedInBoth(k);
  }
}

=== FILE: language_facts.dfy ===
/** Properties of the translation layer: what `t` returns, how the persisted
    preference survives a reload, and how the setter composes. */
module LanguageFacts {
  import opened Wrappers
  import opened Translations
  import TranslationKeys
  import Switcher
  import Header

  /** A present, non-empty entry of the active dictionary is what `t` shows. */
  lemma TranslateFound(p: Provider, l: Language, key: string)
    requires p.language == l.Code()
    requires key in Dict(l) && Dict(l)[key] != ""
    ensures Translate(p, key) == Some(Dict(l)[key])
  {
  }

  /** A key the active dictionary lacks is shown as itself: there is no
      fallback to the other language. */
  lemma TranslateMissing(p: Provider, l: Language, key: string)
    requires p.language == l.Code()
    requires key !in Dict(l)
    ensures Translate(p, key) == Some(key)
  {
  }

  /** Whatever the active language, a key is translated in one dictionary
      exactly when it is translated in the other. */
  lemma TranslatedInBoth(key: string)
    ensures key in Dict(En) <==> key in Dict(Hi)
  {
    TranslationKeys.DictionariesShareKeys();
    assert key in Dict(En) <==> key in Dict(En).Keys;
  }

  /** After a switch, storage holds the new code, and mounting again from
      that storage restores exactly the same provider. */
  lemma ReloadRestores(p: Provider, l: Language)
    ensures SetLanguage(p, l).stored == Some(l.Code())
    ensures Init(SetLanguage(p, l).stored) == SetLanguage(p, l)
  {
  }

  /** Mounting from what a mount persisted gives the same provider back. */
  lemma InitStable(saved: Option<string>)
    ensures Init(Init(saved).stored) == Init(saved)
  {
  }

  /** Setting the same language twice is setting it once. */
  lemma SetLanguageIdempotent(p: Provider, l: Language)
    ensures SetLanguage(SetLanguage(p, l), l) == SetLanguage(p, l)
  {
  }

  /** Only the last of two switches is observable. */
  lemma LastSwitchWins(p: Provider, a: Language, b: Language)
    ensures SetLanguage(SetLanguage(p, a), b) == SetLanguage(p, b)
  {
  }

  /** A saved code without a dictionary is adopted as it is, and every
      lookup then fails. The switcher and the menu both call `t` to render, so
      neither can be drawn and no `setLanguage` can be reached; every reload
      restores the same code. */
  lemma UnsupportedSavedCode(code: string, key: string)
    requires code != "" && !Supported(code)
    ensures Init(Some(code)).language == code
    ensures Translate(Init(Some(code)), key) == None
    ensures Switcher.Options(Provided(Init(Some(code)))) == None
    ensures Switcher.TriggerLabel(Provided(Init(Some(code)))) == None
    ensures Header.MenuLinks(Provided(Init(Some(code)))) == None
    ensures Init(Init(Some(code)).stored) == Init(Some(code))
  {
  }

  /** The mount that adopts only a supported code: `t` never fails, the
      switcher and the menu render, and a supported saved code is adopted
      exactly as by `Init`. */
  lemma CheckedInitTranslates(saved: Option<string>, key: string)
    ensures Translate(CheckedInit(saved), key).Some?
    ensures Switcher.Options(Provided(CheckedInit(saved))).Some?
    ensures Header.MenuLinks(Provided(CheckedInit(saved))).Some?
    ensures saved.Some? && Supported(saved.value) ==> CheckedInit(saved) == Init(saved)
    ensures CheckedInit(CheckedInit(saved).stored) == CheckedInit(saved)
  {
  }

  /** The label as the Hindi results section writes it. */
  lemma HindiNewAdviceEntry()
    ensures "advice.results.newAdvice" in HiAdviceResults
    ensures HiAdviceResults["advice.results.newAdvice"] == "नई सलाह प्राप्त करें"
  {
  }

  /** The Hindi dictionary does hold the "new advice" button label. */
  lemma HindiNewAdvice()
    ensures LookupIn(Dict(Hi), "advice.results.newAdvice") == "नई सलाह प्राप्त करें"
  {
    HindiNewAdviceEntry();
    TranslationKeys.ResultsLookup(Hindi, "advice.results.newAdvice");
  }

  /** So the results view's button is labelled in Hindi under Hindi. */
  lemma NewAdviceInHindi(p: Provider)
    ensures Translate(SetLanguage(p, Hi), "advice.results.newAdvice") == Some("नई सलाह प्राप्त करें")
  {
    HindiNewAdvice();
  }
}

=== FILE: profile.dfy ===
/** The profile page: the editable form, its submission, the sign-in guard
    and the user-type label. */
module Profile {
  import opened Wrappers
  import AdvicePage

  /** The stored profile; each column may be null. */
  datatype ProfileRecord = ProfileRecord(
    fullName: Option<string>,
    avatarUrl: Option<string>,
    userType: Option<string>)

  const FullNameField: string := "full_name"
  const AvatarUrlField: string := "avatar_url"

  /** The form state, keyed by input name as `formData` is. */
  type Form = map<string, string>

  /** A form holding both of the page's inputs. */
  predicate HasBothFields(form: Form) {
    FullNameField in form && AvatarUrlField in form
  }

  /** `x || ''` on a nullable string column. */
  function OrEmpty(x: Option<string>): string {
    x.GetOr("")
  }

  /** The initial `formData`: both fields, taken from the profile when there
      is one, empty otherwise. */
  function InitialForm(profile: Option<ProfileRecord>): (form: Form)
    ensures form.Keys == {FullNameField, AvatarUrlField}
    ensures profile.Some? && profile.value.fullName.Some? ==> form[FullNameField] == profile.value.fullName.value
    ensures profile.Some? && profile.value.avatarUrl.Some? ==> form[AvatarUrlField] == profile.value.avatarUrl.value
    ensures profile == None || profile.value.fullName == None ==> form[FullNameField] == ""
    ensures profile == None || profile.value.avatarUrl == None ==> form[AvatarUrlField] == ""
  {
    match profile
    case None => map[FullNameField := "", AvatarUrlField := ""]
    case Some(r) => map[FullNameField := OrEmpty(r.fullName), AvatarUrlField := OrEmpty(r.avatarUrl)]
  }

  /** `handleChange`: the input named `name` now holds `value`. */
  function HandleChange(form: Form, name: string, value: string): (form': Form)
    ensures form'.Keys == form.Keys + {name}
    ensures form'[name] == value
    ensures forall k :: k in form && k != name ==> form'[k] == form[k]
  {
    form[name := value]
  }

  /** Editing one of the page's two inputs keeps exactly the two fields. */
  lemma ChangeKeepsFields(profile: Option<ProfileRecord>, name: string, value: string)
    requires name == FullNameField || name == AvatarUrlField
    ensures HandleChange(InitialForm(profile), name, value).Keys == {FullNameField, AvatarUrlField}
  {
  }

  /** Edits to different inputs commute; of two edits to one input only the
      later counts. */
  lemma ChangesCompose(form: Form, a: string, b: string, x: string, y: string)
    ensures a != b ==> HandleChange(HandleChange(form, a, x), b, y) == HandleChange(HandleChange(form, b, y), a, x)
    ensures HandleChange(HandleChange(form, a, x), a, y) == HandleChange(form, a, y)
  {
  }

  /** The row update sent for the signed-in user. */
  datatype ProfileUpdate = ProfileUpdate(fullName: string, avatarUrl: string, updatedAt: string)

  /** The update request: the row's id and the new values. */
  datatype UpdateRequest = UpdateRequest(id: string, update: ProfileUpdate)

  /** The toast shown after the request settles. */
  datatype Toast = Updated | UpdateFailed(message: string)

  /** What a submission does: the successive values of `isUpdating`, the
      request sent, and the toast. */
  datatype SubmitOutcome = SubmitOutcome(updating: seq<bool>, request: Option<UpdateRequest>, toast: Option<Toast>)

  /** `handleSubmit`. `userId` is the signed-in user, `now` the timestamp
      the clock gives, and `error` the database's answer. */
  function HandleSubmit(form: Form, userId: Option<string>, now: string, error: Option<string>): (o: SubmitOutcome)
    requires HasBothFields(form)
    ensures userId == None <==> o.updating == []
    ensures userId == None ==> o.request == None && o.toast == None
    ensures userId.Some? ==> o.updating == [true, false]
    ensures userId.Some? ==> o.request == Some(UpdateRequest(userId.value, ProfileUpdate(form[FullNameField], form[AvatarUrlField], now)))
    ensures userId.Some? ==> (o.toast == Some(Updated) <==> error == None)
    ensures userId.Some? && error.Some? ==> o.toast == Some(UpdateFailed(error.value))
  {
    match userId
    case None => SubmitOutcome([], None, None)
    case Some(id) =>
      var request := UpdateRequest(id, ProfileUpdate(form[FullNameField], form[AvatarUrlField], now));
      SubmitOutcome([true, false], Some(request),
        Some(if error == None then Updated else UpdateFailed(error.value)))
  }

  /** `isUpdating` after a submission: the page's flag, replayed through
      the outcome's trace. */
  function UpdatingAfter(before: bool, o: SubmitOutcome): bool {
    if |o.updating| == 0 then before else o.updating[|o.updating| - 1]
  }

  /** Every submission leaves the page not updating once it settles, and
      an edit always reaches the request. */
  lemma SubmitSettles(form: Form, userId: Option<string>, now: string, error: Option<string>, value: string)
    requires HasBothFields(form)
    ensures !UpdatingAfter(false, HandleSubmit(form, userId, now, error))
    ensures userId.Some? ==>
      HandleSubmit(HandleChange(form, FullNameField, value), userId, now, error).request.value.update.fullName == value
    ensures userId.Some? ==>
      HandleSubmit(HandleChange(form, FullNameField, value), userId, now, error).request.value.update.avatarUrl == form[AvatarUrlField]
  {
  }

  /** Submitting the untouched form writes back the profile's own names,
      with null columns written as empty strings. */
  lemma UntouchedSubmitWritesProfile(r: ProfileRecord, id: string, now: string, error: Option<string>)
    ensures HandleSubmit(InitialForm(Some(r)), Some(id), now, error).request
         == Some(UpdateRequest(id, ProfileUpdate(r.fullName.GetOr(""), r.avatarUrl.GetOr(""), now)))
  {
  }

  /** What the page renders. */
  datatype ProfileView = Spinner | Redirect(to: string, replace: bool) | Page

  /** The loading guard comes first, then the sign-in guard. */
  function View(hasUser: bool, isLoading: bool): (v: ProfileView)
    ensures v == Spinner <==> isLoading
    ensures v.Redirect? <==> !isLoading && !hasUser
    ensures v.Redirect? ==> v.to == "/auth" && !v.replace
    ensures v == Page <==> !isLoading && hasUser
  {
    if isLoading then Spinner
    else if !hasUser then Redirect("/auth", false)
    else Page
  }

  /** The profile page and the crop-advice page send the same visitors to
      the sign-in page, but only the crop-advice page replaces the history
      entry. */
  lemma GuardsAgree(s: AdvicePage.AdvicePageState, hasUser: bool, isLoading: bool)
    ensures View(hasUser, isLoading).Redirect? <==> AdvicePage.View(s, hasUser, isLoading).Redirect?
    ensures View(hasUser, isLoading).Redirect? ==>
      View(hasUser, isLoading).to == AdvicePage.View(s, hasUser, isLoading).to
      && !View(hasUser, isLoading).replace && AdvicePage.View(s, hasUser, isLoading).replace
  {
  }

  /** The key of the user-type label: "farmer" reads as a farmer, every
      other value, a null column and a missing profile as an expert. */
  function UserTypeKey(profile: Option<ProfileRecord>): (k: string)
    ensures k == "auth.farmer" <==> profile.Some? && profile.value.userType == Some("farmer")
    ensures k != "auth.farmer" ==> k == "auth.expert"
  {
    if profile.Some? && profile.value.userType == Some("farmer") then "auth.farmer" else "auth.expert"
  }
}

=== FILE: switcher.dfy ===
/** The language switcher: a fixed list of two options, the highlighted one,
    and what choosing an option does. */
module Switcher {
  import opened Wrappers
  import opened Translations
  import TranslationKeys

  /** One entry of the switcher's `languages` list. */
  datatype Choice = Choice(code: Language, name: string)

  /** The option list as rendered. Building it calls `t`, so under a provider
      whose code has no dictionary nothing is rendered (`None`). */
  function Options(c: Context): (r: Option<seq<Choice>>)
    ensures r.Some? <==> (c.DefaultContext? || Supported(c.provider.language))
    ensures r.Some? ==> |r.value| == 2 && r.value[0].code == En && r.value[1].code == Hi
    ensures r.Some? ==> Some(r.value[0].name) == ContextTranslate(c, "language.en")
    ensures r.Some? ==> Some(r.value[1].name) == ContextTranslate(c, "language.hi")
  {
    match (ContextTranslate(c, "language.en"), ContextTranslate(c, "language.hi"))
    case (Some(en), Some(hi)) => Some([Choice(En, en), Choice(Hi, hi)])
    case _ => None
  }

  /** Whether an option is drawn as the active one. */
  predicate Highlighted(c: Context, choice: Choice) {
    ContextLanguage(c) == choice.code.Code()
  }

  /** Clicking an option: `setLanguage(choice.code)`. */
  function Select(c: Context, choice: Choice): (c': Context)
    ensures c.Provided? ==> c'.Provided? && c'.provider.language == choice.code.Code()
    ensures c.Provided? ==> Persisted(c'.provider)
    ensures c.DefaultContext? ==> c' == c
  {
    ContextSetLanguage(c, choice.code)
  }

  /** The label on the button that opens the list. */
  function TriggerLabel(c: Context): (r: Option<string>)
    ensures r.Some? <==> (c.DefaultContext? || Supported(c.provider.language))
    ensures c.DefaultContext? ==> r == Some("language.switch")
  {
    ContextTranslate(c, "language.switch")
  }

  /** The switcher section of each dictionary. */
  lemma SectionEntries()
    ensures EnSwitcher["language.en"] == "English" && HiSwitcher["language.en"] == "English"
    ensures EnSwitcher["language.hi"] == "हिंदी" && HiSwitcher["language.hi"] == "हिंदी"
    ensures EnSwitcher["language.switch"] == "भाषा बदलें"
    ensures HiSwitcher["language.switch"] == "Change Language"
  {
  }

  /** The switcher's three keys as the English dictionary writes them. */
  lemma EnglishEntries()
    ensures LookupIn(Dict(En), "language.en") == "English"
    ensures LookupIn(Dict(En), "language.hi") == "हिंदी"
    ensures LookupIn(Dict(En), "language.switch") == "भाषा बदलें"
  {
    SectionEntries();
    TranslationKeys.EnglishSeparated();
    TranslationKeys.SwitcherShows(English, "language.en");
    TranslationKeys.SwitcherShows(English, "language.hi");
    TranslationKeys.SwitcherShows(English, "language.switch");
  }

  /** The switcher's three keys as the Hindi dictionary writes them. */
  lemma HindiEntries()
    ensures LookupIn(Dict(Hi), "language.en") == "English"
    ensures LookupIn(Dict(Hi), "language.hi") == "हिंदी"
    ensures LookupIn(Dict(Hi), "language.switch") == "Change Language"
  {
    SectionEntries();
    TranslationKeys.HindiSeparated();
    TranslationKeys.SwitcherShows(Hindi, "language.en");
    TranslationKeys.SwitcherShows(Hindi, "language.hi");
    TranslationKeys.SwitcherShows(Hindi, "language.switch");
  }

  /** Under a provider with a dictionary the option labels are the same in
      both languages: "English" and "हिंदी". */
  lemma LabelsIndependentOfLanguage(p: Provider)
    requires Supported(p.language)
    ensures Options(Provided(p)) == Some([Choice(En, "English"), Choice(Hi, "हिंदी")])
  {
    if p.language == "en" {
      EnglishEntries();
    } else {
      HindiEntries();
    }
  }

  /** Each dictionary names the switch in the other language. */
  lemma TriggerInOtherLanguage(p: Provider, l: Language)
    ensures TriggerLabel(Provided(SetLanguage(p, l)))
         == Some(if l == En then "भाषा बदलें" else "Change Language")
  {
    if l == En {
      EnglishEntries();
    } else {
      HindiEntries();
    }
  }

  /** Whenever the list is rendered, exactly one option is highlighted: the
      one whose code is the active language. */
  lemma ExactlyOneHighlighted(c: Context)
    requires Options(c).Some?
    ensures var opts := Options(c).value;
      (Highlighted(c, opts[0]) <==> !Highlighted(c, opts[1]))
      && forall i :: 0 <= i < |opts| && Highlighted(c, opts[i]) ==> opts[i].code.Code() == ContextLanguage(c)
  {
  }

  /** Choosing an option makes it the highlighted one and changes nothing
      but the language. */
  lemma SelectHighlights(p: Provider, choice: Choice)
    ensures Highlighted(Select(Provided(p), choice), choice)
    ensures Select(Provided(p), choice) == Provided(SetLanguage(p, choice.code))
  {
  }
}

=== FILE: translation_keys.dfy ===
/** Facts about the key sets of the two dictionaries: they agree section by
    section, every section lives in its own namespace, and so each dictionary
    has exactly 60 distinct keys. */
module TranslationKeys {
  import opened Translations

  predicate HasPrefix(k: string, p: string) {
    |p| <= |k| && k[..|p|] == p
  }

  /** `k` is a key of `m`. Quantifiers below trigger on this name rather
      than on `k in m`, so that they are not instantiated with every key of
      every literal in scope. */
  predicate Has(m: map<string, string>, k: string) {
    k in m
  }

  /** Every key of `m` starts with the namespace `p`. */
  ghost predicate Namespaced(m: map<string, string>, p: string) {
    forall k :: Has(m, k) ==> HasPrefix(k, p)
  }

  /** Every key of `m` is `p` followed by a name without dots. */
  ghost predicate Leaves(m: map<string, string>, p: string) {
    forall k :: Has(m, k) ==> HasPrefix(k, p) && '.' !in k[|p|..]
  }

  /** Namespaces that differ at position `i` hold disjoint key sets. */
  lemma {:induction false} ClashingNamespaces(a: map<string, string>, b: map<string, string>, p: string, q: string, i: nat)
    requires Namespaced(a, p) && Namespaced(b, q)
    requires i < |p| && i < |q| && p[i] != q[i]
    ensures a.Keys !! b.Keys
  {
    forall k | k in a
      ensures k !in b
    {
      assert Has(a, k) && HasPrefix(k, p) && k[i] == k[..|p|][i];
      assert Has(b, k) ==> HasPrefix(k, q);
    }
  }

  /** A leaf under `p` is never inside a deeper namespace `q` of `p`. */
  lemma {:induction false} LeavesOutsideNamespace(a: map<string, string>, b: map<string, string>, p: string, q: string)
    requires Leaves(a, p) && Namespaced(b, q)
    requires HasPrefix(q, p) && |p| < |q| && q[|q| - 1] == '.'
    ensures a.Keys !! b.Keys
  {
    forall k | k in b
      ensures k !in a
    {
      assert Has(b, k) && HasPrefix(k, q) && k[|q| - 1] == k[..|q|][|q| - 1];
      assert k[|q| - 1] == k[|p|..][|q| - 1 - |p|];
      assert '.' in k[|p|..];
      assert !(HasPrefix(k, p) && '.' !in k[|p|..]);
    }
  }

  /** A namespace inside `p` is inside `p`. */
  lemma {:induction false} Within(m: map<string, string>, q: string, p: string)
    requires Namespaced(m, q) && HasPrefix(q, p)
    ensures Namespaced(m, p)
  {
    forall k | k in m
      ensures HasPrefix(k, p)
    {
      assert Has(m, k) && HasPrefix(k, q) && k[..|p|] == k[..|q|][..|p|];
    }
  }

  /** Leaves under `p` are in the namespace `p`. */
  lemma {:induction false} LeavesWithin(m: map<string, string>, p: string)
    requires Leaves(m, p)
    ensures Namespaced(m, p)
  {
    forall k | Has(m, k)
      ensures HasPrefix(k, p)
    {
    }
  }

  /** Two maps in the namespace `p` have their union in it. */
  lemma {:induction false} UnionWithin(a: map<string, string>, b: map<string, string>, p: string)
    requires Namespaced(a, p) && Namespaced(b, p)
    ensures Namespaced(a + b, p)
  {
    forall k | Has(a + b, k)
      ensures HasPrefix(k, p)
    {
      if k in a {
        assert Has(a, k);
      } else {
        assert Has(b, k);
      }
    }
  }

  /** The union of maps with disjoint keys has the sum of their sizes. */
  lemma DisjointUnionSize(a: map<string, string>, b: map<string, string>)
    requires a.Keys !! b.Keys
    ensures |a + b| == |a| + |b|
  {
    assert (a + b).Keys == a.Keys + b.Keys;
  }

  /** Keys outside two maps are outside their union. */
  lemma UnionOutside(a: map<string, string>, b: map<string, string>, c: map<string, string>)
    requires a.Keys !! c.Keys && b.Keys !! c.Keys
    ensures (a + b).Keys !! c.Keys
  {
  }

  /** The sections of `s` cannot share a key: each lives in the namespace
      its keys are written under, and the two halves of the form labels
      (one namespace) are disjoint. */
  ghost predicate Separated(s: Sections) {
    Leaves(s.navigation, "")
    && Namespaced(s.hero, "hero.")
    && Leaves(s.featuresHeading, "features.")
    && Namespaced(s.consult, "features.consult.")
    && Namespaced(s.visit, "features.visit.")
    && Namespaced(s.adviceCard, "features.advice.")
    && Namespaced(s.tips, "features.tips.")
    && Namespaced(s.cta, "cta.")
    && Namespaced(s.footer, "footer.")
    && Namespaced(s.switcher, "language.")
    && Leaves(s.adviceHeading, "advice.")
    && Namespaced(s.formFirst, "advice.form.")
    && Namespaced(s.formSecond, "advice.form.")
    && Namespaced(s.success, "advice.success.")
    && Namespaced(s.error, "advice.error.")
    && Namespaced(s.results, "advice.results.")
    && s.formFirst.Keys !! s.formSecond.Keys
  }

  /** `a` and `b` have the same keys, section by section. */
  predicate SameSectionKeys(a: Sections, b: Sections) {
    a.navigation.Keys == b.navigation.Keys
    && a.hero.Keys == b.hero.Keys
    && a.featuresHeading.Keys == b.featuresHeading.Keys
    && a.consult.Keys == b.consult.Keys
    && a.visit.Keys == b.visit.Keys
    && a.adviceCard.Keys == b.adviceCard.Keys
    && a.tips.Keys == b.tips.Keys
    && a.cta.Keys == b.cta.Keys
    && a.footer.Keys == b.footer.Keys
    && a.switcher.Keys == b.switcher.Keys
    && a.adviceHeading.Keys == b.adviceHeading.Keys
    && a.formFirst.Keys == b.formFirst.Keys
    && a.formSecond.Keys == b.formSecond.Keys
    && a.success.Keys == b.success.Keys
    && a.error.Keys == b.error.Keys
    && a.results.Keys == b.results.Keys
  }

  /** Dictionaries with the same keys section by section have the same keys. */
  lemma FlattenKeys(a: Sections, b: Sections)
    requires SameSectionKeys(a, b)
    ensures Flatten(a).Keys == Flatten(b).Keys
  {
  }

  /** The features heading and its first two cards add up. */
  lemma {:induction false} FeaturesFrontSize(s: Sections)
    requires Separated(s)
    ensures |s.featuresHeading + s.consult + s.visit| == |s.featuresHeading| + |s.consult| + |s.visit|
    ensures Namespaced(s.featuresHeading + s.consult + s.visit, "features.")
  {
    var acc := s.featuresHeading;
    LeavesWithin(s.featuresHeading, "features.");
    LeavesOutsideNamespace(s.featuresHeading, s.consult, "features.", "features.consult.");
    DisjointUnionSize(acc, s.consult);
    Within(s.consult, "features.consult.", "features.");
    UnionWithin(acc, s.consult, "features.");
    acc := acc + s.consult;
    LeavesOutsideNamespace(s.featuresHeading, s.visit, "features.", "features.visit.");
    ClashingNamespaces(s.consult, s.visit, "features.consult.", "features.visit.", 9);
    DisjointUnionSize(acc, s.visit);
    Within(s.visit, "features.visit.", "features.");
    UnionWithin(acc, s.visit, "features.");
  }

  /** Appending the crop-advice card adds its number. */
  lemma {:induction false} FeaturesJoinsAdvice(s: Sections)
    requires Separated(s)
    ensures |s.featuresHeading + s.consult + s.visit + s.adviceCard|
         == |s.featuresHeading| + |s.consult| + |s.visit| + |s.adviceCard|
    ensures Namespaced(s.featuresHeading + s.consult + s.visit + s.adviceCard, "features.")
  {
    FeaturesFrontSize(s);
    var acc := s.featuresHeading + s.consult + s.visit;
    LeavesOutsideNamespace(s.featuresHeading, s.adviceCard, "features.", "features.advice.");
    ClashingNamespaces(s.consult, s.adviceCard, "features.consult.", "features.advice.", 9);
    ClashingNamespaces(s.visit, s.adviceCard, "features.visit.", "features.advice.", 9);
    DisjointUnionSize(acc, s.adviceCard);
    Within(s.adviceCard, "features.advice.", "features.");
    UnionWithin(acc, s.adviceCard, "features.");
  }

  /** The features section adds up its heading and cards. */
  lemma {:induction false} FeaturesSize(s: Sections)
    requires Separated(s)
    ensures |Features(s)| == |s.featuresHeading| + |s.consult| + |s.visit| + |s.adviceCard| + |s.tips|
    ensures Namespaced(Features(s), "features.")
  {
    FeaturesJoinsAdvice(s);
    var acc := s.featuresHeading + s.consult + s.visit + s.adviceCard;
    LeavesOutsideNamespace(s.featuresHeading, s.tips, "features.", "features.tips.");
    ClashingNamespaces(s.consult, s.tips, "features.consult.", "features.tips.", 9);
    ClashingNamespaces(s.visit, s.tips, "features.visit.", "features.tips.", 9);
    ClashingNamespaces(s.adviceCard, s.tips, "features.advice.", "features.tips.", 9);
    DisjointUnionSize(acc, s.tips);
    Within(s.tips, "features.tips.", "features.");
    UnionWithin(acc, s.tips, "features.");
  }

  /** The form labels add up their two halves. */
  lemma {:induction false} AdviceFormSize(s: Sections)
    requires Separated(s)
    ensures |AdviceForm(s)| == |s.formFirst| + |s.formSecond|
    ensures Namespaced(AdviceForm(s), "advice.form.")
  {
    DisjointUnionSize(s.formFirst, s.formSecond);
    UnionWithin(s.formFirst, s.formSecond, "advice.form.");
  }

  /** The crop-advice heading, form and success entries add up. */
  lemma {:induction false} AdviceFrontSize(s: Sections)
    requires Separated(s)
    ensures |s.adviceHeading + AdviceForm(s) + s.success| == |s.adviceHeading| + |AdviceForm(s)| + |s.success|
    ensures Namespaced(s.adviceHeading + AdviceForm(s) + s.success, "advice.")
  {
    AdviceFormSize(s);
    var acc := s.adviceHeading;
    LeavesWithin(s.adviceHeading, "advice.");
    LeavesOutsideNamespace(s.adviceHeading, AdviceForm(s), "advice.", "advice.form.");
    DisjointUnionSize(acc, AdviceForm(s));
    Within(AdviceForm(s), "advice.form.", "advice.");
    UnionWithin(acc, AdviceForm(s), "advice.");
    acc := acc + AdviceForm(s);
    LeavesOutsideNamespace(s.adviceHeading, s.success, "advice.", "advice.success.");
    ClashingNamespaces(AdviceForm(s), s.success, "advice.form.", "advice.success.", 7);
    DisjointUnionSize(acc, s.success);
    Within(s.success, "advice.success.", "advice.");
    UnionWithin(acc, s.success, "advice.");
  }

  /** Appending the error-notice entries adds their number. */
  lemma {:induction false} AdviceJoinsError(s: Sections)
    requires Separated(s)
    ensures |s.adviceHeading + AdviceForm(s) + s.success + s.error|
         == |s.adviceHeading| + |AdviceForm(s)| + |s.success| + |s.error|
    ensures Namespaced(s.adviceHeading + AdviceForm(s) + s.success + s.error, "advice.")
  {
    AdviceFormSize(s);
    AdviceFrontSize(s);
    var acc := s.adviceHeading + AdviceForm(s) + s.success;
    LeavesOutsideNamespace(s.adviceHeading, s.error, "advice.", "advice.error.");
    ClashingNamespaces(AdviceForm(s), s.error, "advice.form.", "advice.error.", 7);
    ClashingNamespaces(s.success, s.error, "advice.success.", "advice.error.", 7);
    DisjointUnionSize(acc, s.error);
    Within(s.error, "advice.error.", "advice.");
    UnionWithin(acc, s.error, "advice.");
  }

  /** The crop-advice entries add up their parts. */
  lemma {:induction false} AdviceSize(s: Sections)
    requires Separated(s)
    ensures |Advice(s)| == |s.adviceHeading| + |AdviceForm(s)| + |s.success| + |s.error| + |s.results|
    ensures Namespaced(Advice(s), "advice.")
  {
    AdviceFormSize(s);
    AdviceJoinsError(s);
    var acc := s.adviceHeading + AdviceForm(s) + s.success + s.error;
    LeavesOutsideNamespace(s.adviceHeading, s.results, "advice.", "advice.results.");
    ClashingNamespaces(AdviceForm(s), s.results, "advice.form.", "advice.results.", 7);
    ClashingNamespaces(s.success, s.results, "advice.success.", "advice.results.", 7);
    ClashingNamespaces(s.error, s.results, "advice.error.", "advice.results.", 7);
    DisjointUnionSize(acc, s.results);
    Within(s.results, "advice.results.", "advice.");
    UnionWithin(acc, s.results, "advice.");
  }

  /** Appending the hero entries to those before them adds their number. */
  lemma {:induction false} GeneralJoinsHero(s: Sections)
    requires Separated(s)
    ensures |s.navigation + s.hero| == |s.navigation| + |s.hero|
  {
    LeavesOutsideNamespace(s.navigation, s.hero, "", "hero.");
    DisjointUnionSize(s.navigation, s.hero);
  }

  /** Appending the features entries to those before them adds their number. */
  lemma {:induction false} GeneralJoinsFeatures(s: Sections)
    requires Separated(s)
    ensures |s.navigation + s.hero + Features(s)| == |s.navigation + s.hero| + |Features(s)|
  {
    FeaturesSize(s);
    LeavesOutsideNamespace(s.navigation, Features(s), "", "features.");
    ClashingNamespaces(s.hero, Features(s), "hero.", "features.", 0);
    UnionOutside(s.navigation, s.hero, Features(s));
    DisjointUnionSize(s.navigation + s.hero, Features(s));
  }

  /** Appending the call-to-action entries to those before them adds their number. */
  lemma {:induction false} GeneralJoinsCta(s: Sections)
    requires Separated(s)
    ensures |s.navigation + s.hero + Features(s) + s.cta| == |s.navigation + s.hero + Features(s)| + |s.cta|
  {
    FeaturesSize(s);
    LeavesOutsideNamespace(s.navigation, s.cta, "", "cta.");
    ClashingNamespaces(s.hero, s.cta, "hero.", "cta.", 0);
    ClashingNamespaces(Features(s), s.cta, "features.", "cta.", 0);
    UnionOutside(s.navigation, s.hero, s.cta);
    UnionOutside(s.navigation + s.hero, Features(s), s.cta);
    DisjointUnionSize(s.navigation + s.hero + Features(s), s.cta);
  }

  /** Appending the footer entries to those before them adds their number. */
  lemma {:induction false} GeneralJoinsFooter(s: Sections)
    requires Separated(s)
    ensures |s.navigation + s.hero + Features(s) + s.cta + s.footer| == |s.navigation + s.hero + Features(s) + s.cta| + |s.footer|
  {
    FeaturesSize(s);
    LeavesOutsideNamespace(s.navigation, s.footer, "", "footer.");
    ClashingNamespaces(s.hero, s.footer, "hero.", "footer.", 0);
    ClashingNamespaces(Features(s), s.footer, "features.", "footer.", 1);
    ClashingNamespaces(s.cta, s.footer, "cta.", "footer.", 0);
    UnionOutside(s.navigation, s.hero, s.footer);
    UnionOutside(s.navigation + s.hero, Features(s), s.footer);
    UnionOutside(s.navigation + s.hero + Features(s), s.cta, s.footer);
    DisjointUnionSize(s.navigation + s.hero + Features(s) + s.cta, s.footer);
  }

  /** Appending the language-switcher entries to those before them adds their number. */
  lemma {:induction false} GeneralJoinsSwitcher(s: Sections)
    requires Separated(s)
    ensures |s.navigation + s.hero + Features(s) + s.cta + s.footer + s.switcher| == |s.navigation + s.hero + Features(s) + s.cta + s.footer| + |s.switcher|
  {
    FeaturesSize(s);
    LeavesOutsideNamespace(s.navigation, s.switcher, "", "language.");
    ClashingNamespaces(s.hero, s.switcher, "hero.", "language.", 0);
    ClashingNamespaces(Features(s), s.switcher, "features.", "language.", 0);
    ClashingNamespaces(s.cta, s.switcher, "cta.", "language.", 0);
    ClashingNamespaces(s.footer, s.switcher, "footer.", "language.", 0);
    UnionOutside(s.navigation, s.hero, s.switcher);
    UnionOutside(s.navigation + s.hero, Features(s), s.switcher);
    UnionOutside(s.navigation + s.hero + Features(s), s.cta, s.switcher);
    UnionOutside(s.navigation + s.hero + Features(s) + s.cta, s.footer, s.switcher);
    DisjointUnionSize(s.navigation + s.hero + Features(s) + s.cta + s.footer, s.switcher);
  }

  /** The entries before the crop-advice comment add up their parts. */
  lemma {:induction false} GeneralSize(s: Sections)
    requires Separated(s)
    ensures |General(s)| == |s.navigation| + |s.hero| + |Features(s)| + |s.cta| + |s.footer| + |s.switcher|
  {
    GeneralJoinsHero(s);
    GeneralJoinsFeatures(s);
    GeneralJoinsCta(s);
    GeneralJoinsFooter(s);
    GeneralJoinsSwitcher(s);
  }

  /** No key before the crop-advice comment is a crop-advice key. */
  lemma {:induction false} GeneralOutsideAdvice(s: Sections)
    requires Separated(s)
    ensures General(s).Keys !! Advice(s).Keys
  {
    FeaturesSize(s);
    AdviceSize(s);
    LeavesOutsideNamespace(s.navigation, Advice(s), "", "advice.");
    var acc := s.navigation;
    ClashingNamespaces(s.hero, Advice(s), "hero.", "advice.", 0);
    UnionOutside(acc, s.hero, Advice(s));
    acc := acc + s.hero;
    ClashingNamespaces(Features(s), Advice(s), "features.", "advice.", 0);
    UnionOutside(acc, Features(s), Advice(s));
    acc := acc + Features(s);
    ClashingNamespaces(s.cta, Advice(s), "cta.", "advice.", 0);
    UnionOutside(acc, s.cta, Advice(s));
    acc := acc + s.cta;
    ClashingNamespaces(s.footer, Advice(s), "footer.", "advice.", 0);
    UnionOutside(acc, s.footer, Advice(s));
    acc := acc + s.footer;
    ClashingNamespaces(s.switcher, Advice(s), "language.", "advice.", 0);
    UnionOutside(acc, s.switcher, Advice(s));
    acc := acc + s.switcher;
  }

  /** A separated dictionary has as many keys as its sections together. */
  lemma FlattenSize(s: Sections)
    requires Separated(s)
    ensures |Flatten(s)| == |s.navigation|
         + |s.hero|
         + |s.featuresHeading|
         + |s.consult|
         + |s.visit|
         + |s.adviceCard|
         + |s.tips|
         + |s.cta|
         + |s.footer|
         + |s.switcher|
         + |s.adviceHeading|
         + |s.formFirst|
         + |s.formSecond|
         + |s.success|
         + |s.error|
         + |s.results|
  {
    FeaturesSize(s);
    AdviceFormSize(s);
    AdviceSize(s);
    GeneralSize(s);
    GeneralOutsideAdvice(s);
    DisjointUnionSize(General(s), Advice(s));
  }

  /** The English navigation entries lie in their namespace. */
  lemma NavigationNamespace()
    ensures Leaves(EnNavigation, "")
  {
  }

  /** The number of navigation entries. */
  lemma NavigationSize()
    ensures |EnNavigation| == 6
  {
  }

  /** The navigation entries have the same keys in both languages. */
  lemma NavigationKeys()
    ensures EnNavigation.Keys == HiNavigation.Keys
  {
  }

  /** The English hero entries lie in their namespace. */
  lemma HeroNamespace()
    ensures Namespaced(EnHero, "hero.")
  {
    forall k | Has(EnHero, k)
      ensures HasPrefix(k, "hero.")
    {
      assert k[..5] == "hero.";
    }
  }

  /** The number of hero entries. */
  lemma HeroSize()
    ensures |EnHero| == 4
  {
  }

  /** The hero entries have the same keys in both languages. */
  lemma HeroKeys()
    ensures EnHero.Keys == HiHero.Keys
  {
  }

  /** The English features heading entries lie in their namespace. */
  lemma FeaturesHeadingNamespace()
    ensures Leaves(EnFeaturesHeading, "features.")
  {
    forall k | Has(EnFeaturesHeading, k)
      ensures HasPrefix(k, "features.") && '.' !in k[9..]
    {
      assert k[..9] == "features.";
    }
  }

  /** The number of features heading entries. */
  lemma FeaturesHeadingSize()
    ensures |EnFeaturesHeading| == 2
  {
  }

  /** The features heading entries have the same keys in both languages. */
  lemma FeaturesHeadingKeys()
    ensures EnFeaturesHeading.Keys == HiFeaturesHeading.Keys
  {
  }

  /** The English consultation card entries lie in their namespace. */
  lemma FeaturesConsultNamespace()
    ensures Namespaced(EnFeaturesConsult, "features.consult.")
  {
    forall k | Has(EnFeaturesConsult, k)
      ensures HasPrefix(k, "features.consult.")
    {
      assert k[..17] == "features.consult.";
    }
  }

  /** The number of consultation card entries. */
  lemma FeaturesConsultSize()
    ensures |EnFeaturesConsult| == 3
  {
  }

  /** The consultation card entries have the same keys in both languages. */
  lemma FeaturesConsultKeys()
    ensures EnFeaturesConsult.Keys == HiFeaturesConsult.Keys
  {
  }

  /** The English farm-visit card entries lie in their namespace. */
  lemma FeaturesVisitNamespace()
    ensures Namespaced(EnFeaturesVisit, "features.visit.")
  {
    forall k | Has(EnFeaturesVisit, k)
      ensures HasPrefix(k, "features.visit.")
    {
      assert k[..15] == "features.visit.";
    }
  }

  /** The number of farm-visit card entries. */
  lemma FeaturesVisitSize()
    ensures |EnFeaturesVisit| == 3
  {
  }

  /** The farm-visit card entries have the same keys in both languages. */
  lemma FeaturesVisitKeys()
    ensures EnFeaturesVisit.Keys == HiFeaturesVisit.Keys
  {
  }

  /** The English crop-advice card entries lie in their namespace. */
  lemma FeaturesAdviceNamespace()
    ensures Namespaced(EnFeaturesAdvice, "features.advice.")
  {
    forall k | Has(EnFeaturesAdvice, k)
      ensures HasPrefix(k, "features.advice.")
    {
      assert k[..16] == "features.advice.";
    }
  }

  /** The number of crop-advice card entries. */
  lemma FeaturesAdviceSize()
    ensures |EnFeaturesAdvice| == 3
  {
  }

  /** The crop-advice card entries have the same keys in both languages. */
  lemma FeaturesAdviceKeys()
    ensures EnFeaturesAdvice.Keys == HiFeaturesAdvice.Keys
  {
  }

  /** The English farming-tips card entries lie in their namespace. */
  lemma FeaturesTipsNamespace()
    ensures Namespaced(EnFeaturesTips, "features.tips.")
  {
    forall k | Has(EnFeaturesTips, k)
      ensures HasPrefix(k, "features.tips.")
    {
      assert k[..14] == "features.tips.";
    }
  }

  /** The number of farming-tips card entries. */
  lemma FeaturesTipsSize()
    ensures |EnFeaturesTips| == 3
  {
  }

  /** The farming-tips card entries have the same keys in both languages. */
  lemma FeaturesTipsKeys()
    ensures EnFeaturesTips.Keys == HiFeaturesTips.Keys
  {
  }

  /** The English call-to-action entries lie in their namespace. */
  lemma CtaNamespace()
    ensures Namespaced(EnCta, "cta.")
  {
    forall k | Has(EnCta, k)
      ensures HasPrefix(k, "cta.")
    {
      assert k[..4] == "cta.";
    }
  }

  /** The number of call-to-action entries. */
  lemma CtaSize()
    ensures |EnCta| == 3
  {
  }

  /** The call-to-action entries have the same keys in both languages. */
  lemma CtaKeys()
    ensures EnCta.Keys == HiCta.Keys
  {
  }

  /** The English footer entries lie in their namespace. */
  lemma FooterNamespace()
    ensures Namespaced(EnFooter, "footer.")
  {
    forall k | Has(EnFooter, k)
      ensures HasPrefix(k, "footer.")
    {
      assert k[..7] == "footer.";
    }
  }

  /** The number of footer entries. */
  lemma FooterSize()
    ensures |EnFooter| == 3
  {
  }

  /** The footer entries have the same keys in both languages. */
  lemma FooterKeys()
    ensures EnFooter.Keys == HiFooter.Keys
  {
  }

  /** The English language-switcher entries lie in their namespace. */
  lemma SwitcherNamespace()
    ensures Namespaced(EnSwitcher, "language.")
  {
    forall k | Has(EnSwitcher, k)
      ensures HasPrefix(k, "language.")
    {
      assert k[..9] == "language.";
    }
  }

  /** The number of language-switcher entries. */
  lemma SwitcherSize()
    ensures |EnSwitcher| == 3
  {
  }

  /** The language-switcher entries have the same keys in both languages. */
  lemma SwitcherKeys()
    ensures EnSwitcher.Keys == HiSwitcher.Keys
  {
  }

  /** The English crop-advice heading entries lie in their namespace. */
  lemma AdviceHeadingNamespace()
    ensures Leaves(EnAdviceHeading, "advice.")
  {
    forall k | Has(EnAdviceHeading, k)
      ensures HasPrefix(k, "advice.") && '.' !in k[7..]
    {
      assert k[..7] == "advice.";
    }
  }

  /** The number of crop-advice heading entries. */
  lemma AdviceHeadingSize()
    ensures |EnAdviceHeading| == 2
  {
  }

  /** The crop-advice heading entries have the same keys in both languages. */
  lemma AdviceHeadingKeys()
    ensures EnAdviceHeading.Keys == HiAdviceHeading.Keys
  {
  }

  /** The English first form-label entries lie in their namespace. */
  lemma AdviceFormFirstNamespace()
    ensures Namespaced(EnAdviceFormFirst, "advice.form.")
  {
    forall k | Has(EnAdviceFormFirst, k)
      ensures HasPrefix(k, "advice.form.")
    {
      assert k[..12] == "advice.form.";
    }
  }

  /** The number of first form-label entries. */
  lemma AdviceFormFirstSize()
    ensures |EnAdviceFormFirst| == 6
  {
  }

  /** The first form-label entries have the same keys in both languages. */
  lemma AdviceFormFirstKeys()
    ensures EnAdviceFormFirst.Keys == HiAdviceFormFirst.Keys
  {
  }

  /** The English second form-label entries lie in their namespace. */
  lemma AdviceFormSecondNamespace()
    ensures Namespaced(EnAdviceFormSecond, "advice.form.")
  {
    forall k | Has(EnAdviceFormSecond, k)
      ensures HasPrefix(k, "advice.form.")
    {
      assert k[..12] == "advice.form.";
    }
  }

  /** The number of second form-label entries. */
  lemma AdviceFormSecondSize()
    ensures |EnAdviceFormSecond| == 6
  {
  }

  /** The second form-label entries have the same keys in both languages. */
  lemma AdviceFormSecondKeys()
    ensures EnAdviceFormSecond.Keys == HiAdviceFormSecond.Keys
  {
  }

  /** The English success-notice entries lie in their namespace. */
  lemma AdviceSuccessNamespace()
    ensures Namespaced(EnAdviceSuccess, "advice.success.")
  {
    forall k | Has(EnAdviceSuccess, k)
      ensures HasPrefix(k, "advice.success.")
    {
      assert k[..15] == "advice.success.";
    }
  }

  /** The number of success-notice entries. */
  lemma AdviceSuccessSize()
    ensures |EnAdviceSuccess| == 2
  {
  }

  /** The success-notice entries have the same keys in both languages. */
  lemma AdviceSuccessKeys()
    ensures EnAdviceSuccess.Keys == HiAdviceSuccess.Keys
  {
  }

  /** The English error-notice entries lie in their namespace. */
  lemma AdviceErrorNamespace()
    ensures Namespaced(EnAdviceError, "advice.error.")
  {
    forall k | Has(EnAdviceError, k)
      ensures HasPrefix(k, "advice.error.")
    {
      assert k[..13] == "advice.error.";
    }
  }

  /** The number of error-notice entries. */
  lemma AdviceErrorSize()
    ensures |EnAdviceError| == 2
  {
  }

  /** The error-notice entries have the same keys in both languages. */
  lemma AdviceErrorKeys()
    ensures EnAdviceError.Keys == HiAdviceError.Keys
  {
  }

  /** The English results entries lie in their namespace. */
  lemma AdviceResultsNamespace()
    ensures Namespaced(EnAdviceResults, "advice.results.")
  {
    forall k | Has(EnAdviceResults, k)
      ensures HasPrefix(k, "advice.results.")
    {
      assert k[..15] == "advice.results.";
    }
  }

  /** The number of results entries. */
  lemma AdviceResultsSize()
    ensures |EnAdviceResults| == 9
  {
  }

  /** The results entries have the same keys in both languages. */
  lemma AdviceResultsKeys()
    ensures EnAdviceResults.Keys == HiAdviceResults.Keys
  {
  }

  /** The two halves of the English form labels share no key. */
  lemma FormHalvesDisjoint()
    ensures EnAdviceFormFirst.Keys !! EnAdviceFormSecond.Keys
  {
  }

  /** No key of the English dictionary is written in two sections. */
  lemma EnglishSeparated()
    ensures Separated(English)
  {
    NavigationNamespace();
    HeroNamespace();
    FeaturesHeadingNamespace();
    FeaturesConsultNamespace();
    FeaturesVisitNamespace();
    FeaturesAdviceNamespace();
    FeaturesTipsNamespace();
    CtaNamespace();
    FooterNamespace();
    SwitcherNamespace();
    AdviceHeadingNamespace();
    AdviceFormFirstNamespace();
    AdviceFormSecondNamespace();
    AdviceSuccessNamespace();
    AdviceErrorNamespace();
    AdviceResultsNamespace();
    FormHalvesDisjoint();
  }

  /** The Hindi dictionary has, section by section, the English keys. */
  lemma SectionKeysAgree()
    ensures SameSectionKeys(English, Hindi)
  {
    NavigationKeys();
    HeroKeys();
    FeaturesHeadingKeys();
    FeaturesConsultKeys();
    FeaturesVisitKeys();
    FeaturesAdviceKeys();
    FeaturesTipsKeys();
    CtaKeys();
    FooterKeys();
    SwitcherKeys();
    AdviceHeadingKeys();
    AdviceFormFirstKeys();
    AdviceFormSecondKeys();
    AdviceSuccessKeys();
    AdviceErrorKeys();
    AdviceResultsKeys();
  }

  /** Namespaces depend on keys only. */
  lemma {:induction false} NamespacedByKeys(a: map<string, string>, b: map<string, string>, p: string)
    requires Namespaced(a, p) && a.Keys == b.Keys
    ensures Namespaced(b, p)
  {
    forall k | Has(b, k)
      ensures HasPrefix(k, p)
    {
      assert Has(a, k);
    }
  }

  /** Leaves depend on keys only. */
  lemma {:induction false} LeavesByKeys(a: map<string, string>, b: map<string, string>, p: string)
    requires Leaves(a, p) && a.Keys == b.Keys
    ensures Leaves(b, p)
  {
    forall k | Has(b, k)
      ensures HasPrefix(k, p) && '.' !in k[|p|..]
    {
      assert Has(a, k);
    }
  }

  /** Separation depends on keys only. */
  lemma SeparatedByKeys(a: Sections, b: Sections)
    requires Separated(a) && SameSectionKeys(a, b)
    ensures Separated(b)
  {
    LeavesByKeys(a.navigation, b.navigation, "");
    NamespacedByKeys(a.hero, b.hero, "hero.");
    LeavesByKeys(a.featuresHeading, b.featuresHeading, "features.");
    NamespacedByKeys(a.consult, b.consult, "features.consult.");
    NamespacedByKeys(a.visit, b.visit, "features.visit.");
    NamespacedByKeys(a.adviceCard, b.adviceCard, "features.advice.");
    NamespacedByKeys(a.tips, b.tips, "features.tips.");
    NamespacedByKeys(a.cta, b.cta, "cta.");
    NamespacedByKeys(a.footer, b.footer, "footer.");
    NamespacedByKeys(a.switcher, b.switcher, "language.");
    LeavesByKeys(a.adviceHeading, b.adviceHeading, "advice.");
    NamespacedByKeys(a.formFirst, b.formFirst, "advice.form.");
    NamespacedByKeys(a.formSecond, b.formSecond, "advice.form.");
    NamespacedByKeys(a.success, b.success, "advice.success.");
    NamespacedByKeys(a.error, b.error, "advice.error.");
    NamespacedByKeys(a.results, b.results, "advice.results.");
  }

  /** No key of the Hindi dictionary is written in two sections. */
  lemma HindiSeparated()
    ensures Separated(Hindi)
  {
    EnglishSeparated();
    SectionKeysAgree();
    SeparatedByKeys(English, Hindi);
  }

  /** A language-switcher key is looked up in the switcher section. */
  lemma SwitcherLookup(s: Sections, k: string)
    requires Separated(s) && k in s.switcher
    ensures k in Flatten(s) && Flatten(s)[k] == s.switcher[k]
  {
    AdviceSize(s);
    ClashingNamespaces(s.switcher, Advice(s), "language.", "advice.", 0);
  }

  /** What `t` shows for a language-switcher key with a non-empty entry. */
  lemma SwitcherShows(s: Sections, k: string)
    requires Separated(s) && k in s.switcher && s.switcher[k] != ""
    ensures LookupIn(Flatten(s), k) == s.switcher[k]
  {
    SwitcherLookup(s, k);
  }

  /** A crop-advice results key is looked up in the results section, the
      last one written. */
  lemma ResultsLookup(s: Sections, k: string)
    requires k in s.results
    ensures k in Flatten(s) && Flatten(s)[k] == s.results[k]
    ensures s.results[k] != "" ==> LookupIn(Flatten(s), k) == s.results[k]
  {
  }

  /** A navigation name is in none of the sections written before the
      crop-advice entries. */
  lemma NavigationOutsideGeneral(s: Sections, k: string)
    requires Separated(s) && k in s.navigation
    ensures k !in s.hero && k !in Features(s) && k !in s.cta && k !in s.footer && k !in s.switcher
  {
    FeaturesSize(s);
    LeavesOutsideNamespace(s.navigation, s.hero, "", "hero.");
    LeavesOutsideNamespace(s.navigation, Features(s), "", "features.");
    LeavesOutsideNamespace(s.navigation, s.cta, "", "cta.");
    LeavesOutsideNamespace(s.navigation, s.footer, "", "footer.");
    LeavesOutsideNamespace(s.navigation, s.switcher, "", "language.");
  }

  /** A navigation name is looked up in the navigation entries: every
      later section is namespaced, and a name without a dot lies outside all
      of them. */
  lemma NavigationLookup(s: Sections, k: string)
    requires Separated(s) && k in s.navigation
    ensures k in Flatten(s) && Flatten(s)[k] == s.navigation[k]
    ensures s.navigation[k] != "" ==> LookupIn(Flatten(s), k) == s.navigation[k]
  {
    NavigationOutsideGeneral(s, k);
    AdviceSize(s);
    LeavesOutsideNamespace(s.navigation, Advice(s), "", "advice.");
  }

  /** A key outside the navigation entries and outside every namespace the
      dictionary uses is not in it at all. */
  lemma AbsentKey(s: Sections, k: string)
    requires Separated(s) && k !in s.navigation
    requires !HasPrefix(k, "hero.") && !HasPrefix(k, "features.") && !HasPrefix(k, "cta.")
    requires !HasPrefix(k, "footer.") && !HasPrefix(k, "language.") && !HasPrefix(k, "advice.")
    ensures k !in Flatten(s)
  {
    FeaturesSize(s);
    AdviceSize(s);
    assert !Has(s.hero, k) && !Has(Features(s), k) && !Has(s.cta, k);
    assert !Has(s.footer, k) && !Has(s.switcher, k) && !Has(Advice(s), k);
  }

  /** Both dictionaries translate exactly the same keys. */
  lemma DictionariesShareKeys()
    ensures Dict(En).Keys == Dict(Hi).Keys
  {
    SectionKeysAgree();
    FlattenKeys(English, Hindi);
  }

  /** The English dictionary has exactly 60 distinct keys. */
  lemma EnglishSize()
    ensures |Dict(En)| == 60
  {
    EnglishSeparated();
    FlattenSize(English);
    NavigationSize();
    HeroSize();
    FeaturesHeadingSize();
    FeaturesConsultSize();
    FeaturesVisitSize();
    FeaturesAdviceSize();
    FeaturesTipsSize();
    CtaSize();
    FooterSize();
    SwitcherSize();
    AdviceHeadingSize();
    AdviceFormFirstSize();
    AdviceFormSecondSize();
    AdviceSuccessSize();
    AdviceErrorSize();
    AdviceResultsSize();
  }

  /** Each dictionary has exactly 60 distinct keys. */
  lemma DictionarySizes()
    ensures |Dict(En)| == 60 && |Dict(Hi)| == 60
  {
    EnglishSize();
    DictionariesShareKeys();
    assert |Dict(Hi)| == |Dict(Hi).Keys| == |Dict(En).Keys|;
  }
}

=== FILE: translations.dfy ===
/** The translation layer of the front end: the closed language set, the two
    key-to-string dictionaries, the provider state (active language, the
    persisted preference and the document's `lang` attribute) and the lookup
    `t` that degrades to the key itself. */
module Translations {
  import opened Wrappers

  /** The languages the type `Language` admits. */
  datatype Language = En | Hi {
    /** The code the language is stored and compared under. */
    function Code(): string {
      match this
      case En => "en"
      case Hi => "hi"
    }
  }

  /** The code used when nothing usable is saved. */
  const DefaultCode: string := "en"

  /** Codes that have a dictionary. */
  predicate Supported(code: string) {
    code == "en" || code == "hi"
  }

  /** A dictionary written as the groups of entries the source object separates
      by a comment or a blank line, the crop-advice group split further by key
      namespace. The dictionary itself is their union (`Flatten`); no key
      repeats across groups, so the union loses nothing
      (TranslationKeys.DictionarySizes). */
  datatype Sections = Sections(
    navigation: map<string, string>,
    hero: map<string, string>,
    featuresHeading: map<string, string>,
    consult: map<string, string>,
    visit: map<string, string>,
    adviceCard: map<string, string>,
    tips: map<string, string>,
    cta: map<string, string>,
    footer: map<string, string>,
    switcher: map<string, string>,
    adviceHeading: map<string, string>,
    formFirst: map<string, string>,
    formSecond: map<string, string>,
    success: map<string, string>,
    error: map<string, string>,
    results: map<string, string>)

  /** The features section: heading and four cards. */
  function Features(s: Sections): map<string, string> {
    s.featuresHeading + s.consult + s.visit + s.adviceCard + s.tips
  }

  /** The entries before the crop-advice comment. */
  function General(s: Sections): map<string, string> {
    s.navigation + s.hero + Features(s) + s.cta + s.footer + s.switcher
  }

  /** The crop-advice form labels. */
  function AdviceForm(s: Sections): map<string, string> {
    s.formFirst + s.formSecond
  }

  /** The crop-advice entries. */
  function Advice(s: Sections): map<string, string> {
    s.adviceHeading + AdviceForm(s) + s.success + s.error + s.results
  }

  /** The whole dictionary. */
  function Flatten(s: Sections): map<string, string> {
    General(s) + Advice(s)
  }

  // ---- English dictionary (LanguageContext.tsx lines 24-101) ----

  /** Navigation labels (keys without a namespace). */
  const EnNavigation: map<string, string> := map[
    "home" := "Home",
    "about" := "About Us",
    "services" := "Services",
    "contact" := "Contact",
    "login" := "Login",
    "signup" := "Sign Up"
  ]

  /** Hero section. */
  const EnHero: map<string, string> := map[
    "hero.title" := "Welcome to Kisan Bhasha Bandhu",
    "hero.subtitle" := "Connecting Farmers with Expert Advice and Resources",
    "hero.cta" := "Get Started",
    "hero.secondary" := "Learn More"
  ]

  /** Features section: heading. */
  const EnFeaturesHeading: map<string, string> := map[
    "features.title" := "Our Services",
    "features.subtitle" := "How we can help you succeed"
  ]

  /** Features section: consultation card. */
  const EnFeaturesConsult: map<string, string> := map[
    "features.consult.title" := "Expert Consultations",
    "features.consult.desc" := "Connect with agriculture experts via video or audio calls for personalized guidance.",
    "features.consult.cta" := "Book a Consultation"
  ]

  /** Features section: farm-visit card. */
  const EnFeaturesVisit: map<string, string> := map[
    "features.visit.title" := "Farm Visits",
    "features.visit.desc" := "Schedule an expert to visit your farm for hands-on guidance and problem-solving.",
    "features.visit.cta" := "Request a Visit"
  ]

  /** Features section: crop-advice card. */
  const EnFeaturesAdvice: map<string, string> := map[
    "features.advice.title" := "Crop Advice",
    "features.advice.desc" := "Get personalized recommendations for your crops based on your specific conditions.",
    "features.advice.cta" := "Get Advice"
  ]

  /** Features section: farming-tips card. */
  const EnFeaturesTips: map<string, string> := map[
    "features.tips.title" := "Farming Tips",
    "features.tips.desc" := "Access a library of practical farming tips, guides, and best practices.",
    "features.tips.cta" := "Browse Tips"
  ]

  /** Call to action. */
  const EnCta: map<string, string> := map[
    "cta.title" := "Ready to improve your farming?",
    "cta.subtitle" := "Join thousands of farmers already benefiting from our platform",
    "cta.button" := "Get Started Now"
  ]

  /** Footer. */
  const EnFooter: map<string, string> := map[
    "footer.rights" := "All rights reserved",
    "footer.privacy" := "Privacy Policy",
    "footer.terms" := "Terms of Service"
  ]

  /** Language switcher. */
  const EnSwitcher: map<string, string> := map[
    "language.switch" := "भाषा बदलें",
    "language.en" := "English",
    "language.hi" := "हिंदी"
  ]

  /** Crop advice: page heading. */
  const EnAdviceHeading: map<string, string> := map[
    "advice.title" := "Personalized Crop Advice",
    "advice.subtitle" := "Get recommendations tailored to your farm and local conditions"
  ]

  /** Crop advice: form labels, first six in source order. */
  const EnAdviceFormFirst: map<string, string> := map[
    "advice.form.title" := "Tell us about your farm",
    "advice.form.cropType" := "Crop Type",
    "advice.form.selectCrop" := "Select crop",
    "advice.form.soilType" := "Soil Type",
    "advice.form.selectSoil" := "Select soil type",
    "advice.form.landSize" := "Land Size"
  ]

  /** Crop advice: form labels, last six in source order. */
  const EnAdviceFormSecond: map<string, string> := map[
    "advice.form.region" := "Region/Location",
    "advice.form.waterAvailability" := "Water Availability",
    "advice.form.selectWater" := "Select water availability",
    "advice.form.additionalInfo" := "Additional Information",
    "advice.form.additionalInfoPlaceholder" := "Any other details about your farm, current challenges, or specific questions...",
    "advice.form.submit" := "Get Personalized Advice"
  ]

  /** Crop advice: success notice. */
  const EnAdviceSuccess: map<string, string> := map[
    "advice.success.title" := "Advice Generated",
    "advice.success.message" := "Your personalized crop advice has been generated successfully."
  ]

  /** Crop advice: error notice. */
  const EnAdviceError: map<string, string> := map[
    "advice.error.title" := "Error",
    "advice.error.message" := "Unable to generate advice. Please try again."
  ]

  /** Crop advice: results view. */
  const EnAdviceResults: map<string, string> := map[
    "advice.results.title" := "Your Personalized Recommendations",
    "advice.results.newAdvice" := "Get New Advice",
    "advice.results.cropRecommendations" := "Crop Recommendations",
    "advice.results.bestPractices" := "Best Practices",
    "advice.results.timeline" := "Cultivation Timeline",
    "advice.results.expectedYield" := "Expected Yield",
    "advice.results.marketValue" := "Market Value",
    "advice.results.soilManagement" := "Soil Management",
    "advice.results.waterManagement" := "Water Management"
  ]

  /** The English dictionary by section. */
  const English: Sections := Sections(
    EnNavigation,
    EnHero,
    EnFeaturesHeading,
    EnFeaturesConsult,
    EnFeaturesVisit,
    EnFeaturesAdvice,
    EnFeaturesTips,
    EnCta,
    EnFooter,
    EnSwitcher,
    EnAdviceHeading,
    EnAdviceFormFirst,
    EnAdviceFormSecond,
    EnAdviceSuccess,
    EnAdviceError,
    EnAdviceResults)

  // ---- Hindi dictionary (LanguageContext.tsx lines 103-180) ----

  /** Navigation labels (keys without a namespace). */
  const HiNavigation: map<string, string> := map[
    "home" := "होम",
    "about" := "हमारे बारे में",
    "services" := "सेवाएं",
    "contact" := "संपर्क करें",
    "login" := "लॉग इन",
    "signup" := "साइन अप"
  ]

  /** Hero section. */
  const HiHero: map<string, string> := map[
    "hero.title" := "किसान भाषा बंधु में आपका स्वागत है",
    "hero.subtitle" := "किसानों को विशेषज्ञ सलाह और संसाधनों से जोड़ना",
    "hero.cta" := "शुरू करें",
    "hero.secondary" := "और जानें"
  ]

  /** Features section: heading. */
  const HiFeaturesHeading: map<string, string> := map[
    "features.title" := "हमारी सेवाएं",
    "features.subtitle" := "हम आपकी सफलता में कैसे मदद कर सकते हैं"
  ]

  /** Features section: consultation card. */
  const HiFeaturesConsult: map<string, string> := map[
    "features.consult.title" := "विशेषज्ञ परामर्श",
    "features.consult.desc" := "व्यक्तिगत मार्गदर्शन के लिए वीडियो या ऑडियो कॉल के माध्यम से कृषि विशेषज्ञों से जुड़ें।",
    "features.consult.cta" := "परामर्श बुक करें"
  ]

  /** Features section: farm-visit card. */
  const HiFeaturesVisit: map<string, string> := map[
    "features.visit.title" := "खेत का दौरा",
    "features.visit.desc" := "व्यावहारिक मार्गदर्शन और समस्या-समाधान के लिए अपने खेत पर विशेषज्ञ को बुलाएं।",
    "features.visit.cta" := "दौरा अनुरोध करें"
  ]

  /** Features section: crop-advice card. */
  const HiFeaturesAdvice: map<string, string> := map[
    "features.advice.title" := "फसल सलाह",
    "features.advice.desc" := "अपनी विशिष्ट स्थितियों के आधार पर अपनी फसलों के लिए व्यक्तिगत सिफारिशें प्राप्त करें।",
    "features.advice.cta" := "सलाह प्राप्त करें"
  ]

  /** Features section: farming-tips card. */
  const HiFeaturesTips: map<string, string> := map[
    "features.tips.title" := "खेती के टिप्स",
    "features.tips.desc" := "व्यावहारिक खेती के टिप्स, गाइड और सर्वोत्तम प्रथाओं की लाइब्रेरी तक पहुंचें।",
    "features.tips.cta" := "टिप्स ब्राउज़ करें"
  ]

  /** Call to action. */
  const HiCta: map<string, string> := map[
    "cta.title" := "अपनी खेती में सुधार के लिए तैयार हैं?",
    "cta.subtitle" := "हजारों किसानों से जुड़ें जो पहले से ही हमारे प्लेटफॉर्म से लाभ उठा रहे हैं",
    "cta.button" := "अभी शुरू करें"
  ]

  /** Footer. */
  const HiFooter: map<string, string> := map[
    "footer.rights" := "सर्वाधिकार सुरक्षित",
    "footer.privacy" := "गोपनीयता नीति",
    "footer.terms" := "सेवा की शर्तें"
  ]

  /** Language switcher. */
  const HiSwitcher: map<string, string> := map[
    "language.switch" := "Change Language",
    "language.en" := "English",
    "language.hi" := "हिंदी"
  ]

  /** Crop advice: page heading. */
  const HiAdviceHeading: map<string, string> := map[
    "advice.title" := "व्यक्तिगत फसल सलाह",
    "advice.subtitle" := "अपने खेत और स्थानीय परिस्थितियों के अनुसार सिफारिशें प्राप्त करें"
  ]

  /** Crop advice: form labels, first six in source order. */
  const HiAdviceFormFirst: map<string, string> := map[
    "advice.form.title" := "हमें अपने खेत के बारे में बताएं",
    "advice.form.cropType" := "फसल प्रकार",
    "advice.form.selectCrop" := "फसल चुनें",
    "advice.form.soilType" := "मिट्टी का प्रकार",
    "advice.form.selectSoil" := "मिट्टी का प्रकार चुनें",
    "advice.form.landSize" := "भूमि का आकार"
  ]

  /** Crop advice: form labels, last six in source order. */
  const HiAdviceFormSecond: map<string, string> := map[
    "advice.form.region" := "क्षेत्र/स्थान",
    "advice.form.waterAvailability" := "पानी की उपलब्धता",
    "advice.form.selectWater" := "पानी की उपलब्धता चुनें",
    "advice.form.additionalInfo" := "अतिरिक्त जानकारी",
    "advice.form.additionalInfoPlaceholder" := "अपने खेत के बारे में कोई अन्य विवरण, वर्तमान चुनौतियां, या विशिष्ट प्रश्न...",
    "advice.form.submit" := "व्यक्तिगत सलाह प्राप्त करें"
  ]

  /** Crop advice: success notice. */
  const HiAdviceSuccess: map<string, string> := map[
    "advice.success.title" := "सलाह तैयार",
    "advice.success.message" := "आपकी व्यक्तिगत फसल सलाह सफलतापूर्वक तैयार की गई है।"
  ]

  /** Crop advice: error notice. */
  const HiAdviceError: map<string, string> := map[
    "advice.error.title" := "त्रुटि",
    "advice.error.message" := "सलाह तैयार करने में असमर्थ। कृपया पुनः प्रयास करें।"
  ]

  /** Crop advice: results view. */
  const HiAdviceResults: map<string, string> := map[
    "advice.results.title" := "आपकी व्यक्तिगत सिफारिशें",
    "advice.results.newAdvice" := "नई सलाह प्राप्त करें",
    "advice.results.cropRecommendations" := "फसल सिफारिशें",
    "advice.results.bestPractices" := "सर्वोत्तम प्रथाएं",
    "advice.results.timeline" := "खेती का समय",
    "advice.results.expectedYield" := "अपेक्षित उपज",
    "advice.results.marketValue" := "बाजार मूल्य",
    "advice.results.soilManagement" := "मिट्टी प्रबंधन",
    "advice.results.waterManagement" := "जल प्रबंधन"
  ]

  /** The Hindi dictionary by section. */
  const Hindi: Sections := Sections(
    HiNavigation,
    HiHero,
    HiFeaturesHeading,
    HiFeaturesConsult,
    HiFeaturesVisit,
    HiFeaturesAdvice,
    HiFeaturesTips,
    HiCta,
    HiFooter,
    HiSwitcher,
    HiAdviceHeading,
    HiAdviceFormFirst,
    HiAdviceFormSecond,
    HiAdviceSuccess,
    HiAdviceError,
    HiAdviceResults)

  /** `translations[l]`: the whole dictionary of a language. */
  function Dict(l: Language): map<string, string> {
    match l
    case En => Flatten(English)
    case Hi => Flatten(Hindi)
  }

  /** The language whose code `code` is, if any: exactly the codes for which
      `translations[code]` is defined. */
  function LanguageOf(code: string): (l: Option<Language>)
    ensures l.Some? <==> Supported(code)
    ensures l.Some? ==> l.value.Code() == code
  {
    if code == "en" then Some(En)
    else if code == "hi" then Some(Hi)
    else None
  }

  /** `d[key] || key`: a present, non-empty entry, and otherwise the key. */
  function LookupIn(d: map<string, string>, key: string): (r: string)
    ensures r == key || (key in d && r == d[key] && r != "")
    ensures key in d && d[key] != "" ==> r == d[key]
  {
    if key in d && d[key] != "" then d[key] else key
  }

  /** Provider state once the persist effect has run: the active language
      (a string, because the saved value is adopted by an unchecked cast),
      the value in storage under the key 'language', and the document's
      `lang` attribute. */
  datatype Provider = Provider(language: string, stored: Option<string>, docLang: string)

  /** Storage and the document attribute agree with the active language. */
  predicate Persisted(p: Provider) {
    p.stored == Some(p.language) && p.docLang == p.language
  }

  /** Mount: adopt the saved string unless it is null or empty (both falsy),
      then the effect writes it back and sets the document language. */
  function Init(saved: Option<string>): (p: Provider)
    ensures Persisted(p)
    ensures p.language != ""
    ensures saved == None || saved == Some("") ==> p.language == DefaultCode
    ensures saved.Some? && saved.value != "" ==> p.language == saved.value
  {
    var code := if saved.Some? && saved.value != "" then saved.value else DefaultCode;
    Provider(code, Some(code), code)
  }

  /** Mount adopting a saved string only when it names a dictionary, as the
      cast to `Language` presumes; anything else falls back to the default. */
  function CheckedInit(saved: Option<string>): (p: Provider)
    ensures Persisted(p)
    ensures Supported(p.language)
    ensures saved.Some? && Supported(saved.value) ==> p.language == saved.value
    ensures saved.None? || !Supported(saved.value) ==> p.language == DefaultCode
  {
    var code := if saved.Some? && Supported(saved.value) then saved.value else DefaultCode;
    Provider(code, Some(code), code)
  }

  /** `setLanguage(l)` followed by the persist effect. */
  function SetLanguage(p: Provider, l: Language): (p': Provider)
    ensures Persisted(p')
    ensures p'.language == l.Code() && Supported(p'.language)
  {
    Provider(l.Code(), Some(l.Code()), l.Code())
  }

  /** `t(key)` under a provider: `None` stands for the TypeError thrown when
      the active code has no dictionary. */
  function Translate(p: Provider, key: string): (r: Option<string>)
    ensures r.Some? <==> Supported(p.language)
    ensures r.Some? ==> var d := Dict(LanguageOf(p.language).value);
      r.value == key || (key in d && r.value == d[key] && r.value != "")
  {
    match LanguageOf(p.language)
    case Some(l) => Some(LookupIn(Dict(l), key))
    case None => None
  }

  /** What a consumer reaches through `useLanguage()`: the default context
      value when no provider is mounted above it, or a provider. */
  datatype Context = DefaultContext | Provided(provider: Provider)

  /** The `language` field a consumer reads. */
  function ContextLanguage(c: Context): (code: string)
    ensures c.DefaultContext? ==> code == DefaultCode
  {
    match c
    case DefaultContext => DefaultCode
    case Provided(p) => p.language
  }

  /** The `t` a consumer calls. */
  function ContextTranslate(c: Context, key: string): (r: Option<string>)
    ensures c.DefaultContext? ==> r == Some(key)
    ensures c.Provided? ==> r == Translate(c.provider, key)
  {
    match c
    case DefaultContext => Some(key)
    case Provided(p) => Translate(p, key)
  }

  /** The default context's `setLanguage` does nothing. */
  function ContextSetLanguage(c: Context, l: Language): (c': Context)
    ensures c.DefaultContext? ==> c' == DefaultContext
    ensures c.Provided? ==> c'.Provided? && c'.provider.language == l.Code()
  {
    match c
    case DefaultContext => DefaultContext
    case Provided(p) => Provided(SetLanguage(p, l))
  }
}

=== FILE: wrappers.dfy ===
/** A value that may be absent: JavaScript's `null`/`undefined`, or a
    computation that does not produce a value. */
module Wrappers {

  datatype Option<+T> = None | Some(value: T) {

    /** The value, or `default` when absent (JavaScript's `x ?? default`). */
    function GetOr(default: T): T {
      match this
      case Some(v) => v
      case None => default
    }
  }
}
